=== FILE: README.md ===
# Cybertron Racer DX: race simulation and bookkeeping in Dafny

This project models the game logic under the three.js racing game Cybertron
Racer DX as pure step functions over immutable records, and proves properties
of those functions.

- **Input.** The keyboard flag map, the touch buttons, tilt steering with its
  dead zone and permission gate, and the per-frame merge of all of these into
  one control intent.
- **Vehicle step.** The velocity only ever changes along world z, so the step
  is one-dimensional over exact reals:
  1. throttle;
  2. clamp to 200;
  3. integrate the position;
  4. apply drag of 0.95.

  The heading is a separate accumulator that never steers. The HUD speed and
  the drift flag are read before the clamp. The vehicle starts and resets at
  the origin, so it never leaves the line x = 0. Every checkpoint list has a
  checkpoint at least 30 units off that line, so no lap is ever completed
  (see "## Findings"). A step that moves along the heading is modelled
  beside it.
- **Race progression.**
  - The 5-second countdown.
  - The elapsed-time accumulator.
  - The checkpoint cursor, which advances `(i+1) mod N` while the vehicle is
    strictly within 30 units of the current checkpoint.
  - The lap and lap-time bookkeeping.
  - The race-complete report. There is no finished state: it is reported
    again on every later wrap.
- **Checkpoint generation.** Checkpoints come from sample indices:
  - a built-in track gives five checkpoints, the last one a whole number of
    turns after the first (two on maze-vector, one on the others);
  - an unknown track id gives four;
  - a failure to build the track gives four fixed fallback checkpoints.
- **Engine session.**
  - Start-up: the mount-element guard, the WebGL check and the error
    reported when building the scene throws, with the loading and error
    screens that follow from them.
  - The animation frame: the capped step, then timer, then physics and the
    checkpoint check, then the camera's field of view.
  - Every input event.
  - `SessionInv`, the invariant every reachable session keeps.
- **HUD text.** The `m:ss.s` clock, over exact decimal strings, and the lap
  counter clamp.
- **Store.**
  - The settings merge.
  - Best lap times that only improve, where JavaScript falsiness makes a
    stored 0 count as "no best".
  - Ghost data.
  - The `track-bike` key and the reload loop that splits it again on `-`.
  - The race-complete handler.
  - The start of a race.

Modules (one file each):

| module | file | what it holds |
|---|---|---|
| `Geometry` | geometry.dfy | vectors and squared distance |
| `Options` | options.dfy | optional values |
| `Keyboard` | keyboard.dfy | key codes, the flag map, key events |
| `MobileControls` | mobile_controls.dfy | touches, tilt, the orientation permission |
| `Intent` | intent.dfy | the merged control intent |
| `Physics` | physics.dfy | the vehicle step and reset |
| `Race` | race.dfy | countdown, timer, checkpoints, laps |
| `Track` | track.dfy | checkpoint generation |
| `Decimal` | decimal.dfy | digit strings |
| `Hud` | hud.dfy | clock text, lap counter |
| `Records` | records.dfy | the store, reload, race-complete handler |
| `Engine` | engine.dfy | start-up, frames, events, the session invariant |
| `Host` | host.dfy | the hand-over between the shell and the engine |
| `Reach` | reach.dfy | which checkpoints the vehicle can reach, and the step that steers |

Inputs that come from outside the program are parameters:
- the clock's frame delta;
- whether the mount element is present when initialisation runs;
- whether WebGL exists;
- the message of an exception thrown while building the scene, if any;
- whether building the track throws;
- the track's centreline, as a function from layout and turns to a point;
- for the steered step, the sine and cosine of a heading;
- whether the scene is attached;
- the answers of the orientation permission prompt;
- the saved lap-time entries;
- whether the device is mobile, fixed for a session.

## Model

| member | source | states |
|---|---|---|
| `Geometry.SqDist` | apps/web/src/hooks/useGameLogic.js:48 | the squared distance is non-negative, 0 from a point to itself, and at least each squared coordinate difference |
| `Geometry.ShorterIffSquareSmaller` | apps/web/src/hooks/useGameLogic.js:48-50 | for a non-negative length and radius, length < radius exactly when length² < radius² |
| `Keyboard.BindingOf` | apps/web/src/hooks/useInput.js:14-50 | each of KeyW/ArrowUp, KeyS/ArrowDown, KeyA/ArrowLeft, KeyD/ArrowRight, ShiftLeft, Space holds exactly its flag; KeyR resets and Escape leaves, and nothing else does |
| `Keyboard.KeyDown` | apps/web/src/hooks/useInput.js:14-51 | after a key-down, a flag is set exactly when it was set or the code is one of its codes; a reset or leave request is raised exactly for KeyR or Escape |
| `Keyboard.KeyUp` | apps/web/src/hooks/useInput.js:53-78 | after a key-up, a flag is set exactly when it was set and the code is not one of its codes; KeyR, Escape and unknown codes change nothing |
| `Keyboard.RepeatIsIdempotent` | apps/web/src/hooks/useInput.js:14-77 | a repeated key-down or key-up changes nothing more |
| `Keyboard.AliasesShareOneFlag` | apps/web/src/hooks/useInput.js:16-58 | releasing ArrowUp clears forward although KeyW is still held |
| `Keyboard.Deliver` | apps/web/src/hooks/useInput.js:80-83 | on a mobile device no listener runs: the flags stay and no request is raised; a key-up never raises a request |
| `Keyboard.MobileKeysNeverChange` | apps/web/src/hooks/useInput.js:80-90 | on a mobile device no sequence of key events changes the flag map |
| `Keyboard.LastTouchDecides` | apps/web/src/hooks/useInput.js:14-77 | after any sequence of events a flag equals its initial value if no event touched it, and otherwise whether the last event that touched it was a key-down |
| `MobileControls.TouchStart` | apps/web/src/hooks/useMobileControls.js:74-77 | the touched control becomes pressed and no other control changes |
| `MobileControls.TouchEnd` | apps/web/src/hooks/useMobileControls.js:79-82 | the released control becomes unpressed and no other control changes |
| `MobileControls.TouchEndUndoesStart` | apps/web/src/hooks/useMobileControls.js:74-82 | lifting a finger from a control that was free before it landed restores the touch state |
| `MobileControls.TouchStartUndoesEnd` | apps/web/src/hooks/useMobileControls.js:74-82 | landing a finger on a control that was held before it lifted restores the touch state |
| `MobileControls.SteeringValue` | apps/web/src/hooks/useMobileControls.js:86-88 | the steering value lies in [-1, 1], equals gamma/30·0.3 whenever that lies in range, and is beyond the ±0.1 dead zone exactly when gamma is beyond ±10 degrees |
| `MobileControls.SteeringInput` | apps/web/src/hooks/useMobileControls.js:84-95 | left holds iff mobile, permitted and gamma < -10; right iff mobile, permitted and gamma > 10; never both |
| `MobileControls.OnOrientation` | apps/web/src/hooks/useMobileControls.js:99-106 | a sample is stored only on a permitted mobile device, each missing angle as 0; otherwise the stored sample stays |
| `MobileControls.MissingOrSmallTiltIsNeutral` | apps/web/src/hooks/useMobileControls.js:86-104 | a sample with no tilt, or tilt within 10 degrees, gives neutral steering, whatever tilt was stored before it |
| `MobileControls.RequestPermission` | apps/web/src/hooks/useMobileControls.js:16-34 | a grant is never withdrawn; from no grant, permission is granted exactly on a prompt answered "granted" or, without a prompt, when orientation events exist |
| `MobileControls.GrantIsPermanent` | apps/web/src/hooks/useMobileControls.js:16-34 | after any sequence of requests access is held exactly when it was held before or some request granted it, so a grant survives every later refusal |
| `Intent.Merge` | apps/web/src/hooks/useGameLogic.js:85-91 | on mobile, throttle comes from the touches and steering from the tilt; on desktop everything comes from the keys; drift always comes from the keys |
| `Intent.MobileIgnoresOtherSources` | apps/web/src/hooks/useGameLogic.js:85-91 | on mobile the intent does not depend on the touch steer buttons or on any key except drift |
| `Intent.MobileNeverDrifts` | apps/web/src/hooks/useGameLogic.js:90 | on mobile, after any key events, the intent never drifts |
| `Intent.SteeringThroughIntent` | apps/web/src/hooks/useGameLogic.js:83-89 | on mobile the intent turns left iff permitted and gamma < -10, and right iff permitted and gamma > 10 |
| `Physics.Round` | apps/web/src/hooks/useGameLogic.js:124 | the result is the integer nearest the input, with halves rounding up |
| `Physics.ClampSpeed` | apps/web/src/hooks/useGameLogic.js:110-113 | the clamped speed is at most 200 in magnitude, has the same sign, and is unchanged when already within 200 |
| `Physics.Step` | apps/web/src/hooks/useGameLogic.js:75-126 | x and y stay; z advances by the clamped velocity times dt; the new velocity is 0.95 times the clamped one; HUD speed is round(3.6·\|v\|) and drifting is drift ∧ \|v\| > 20, both for v before the clamp |
| `Physics.ThrottleRule` | apps/web/src/hooks/useGameLogic.js:93-98 | forward subtracts 100·dt, backward adds 50·dt, both give -50·dt, neither leaves the velocity |
| `Physics.TurnRule` | apps/web/src/hooks/useGameLogic.js:100-105 | left adds 2·dt to the heading, right subtracts 2·dt, and both held cancel |
| `Physics.HeadingDoesNotSteer` | apps/web/src/hooks/useGameLogic.js:107-108 | vehicles that differ only in heading move identically and report the same HUD values |
| `Physics.DragSlowsIdleVehicle` | apps/web/src/hooks/useGameLogic.js:120 | with no input a moving vehicle loses at least 5% of its speed each step |
| `Physics.ClampIdleInPlay` | apps/web/src/hooks/useGameLogic.js:110-124 | from a speed of at most 190 and a step of at most 0.1s the clamp never acts, the HUD speed stays in 0..720 and the speed stays at most 190 |
| `Physics.Reset` | apps/web/src/hooks/useGameLogic.js:137-144 | with a vehicle present, position, velocity and heading become zero; otherwise nothing changes |
| `Race.CountdownTick` | apps/web/src/hooks/useGameLogic.js:31-42 | an armed tick lowers the countdown by one and starts the race exactly at the tick from 1; an unarmed tick does nothing; nothing else changes |
| `Race.CountdownStartsAfterFiveTicks` | apps/web/src/hooks/useGameLogic.js:17-42 | from the initial state, n ticks show 5-n, the race starts at exactly the fifth tick, and later ticks change nothing |
| `Race.UpdateTimer` | apps/web/src/hooks/useGameLogic.js:131-135 | once started the time grows by exactly dt; before the start nothing changes; nothing but the time ever changes |
| `Race.NearIsWithinRadius` | apps/web/src/hooks/useGameLogic.js:48-50 | the squared-distance test agrees with the strict test distance < 30 |
| `Race.CheckCheckpoints` | apps/web/src/hooks/useGameLogic.js:44-73 | no-op on an empty list or away from the checkpoint; otherwise the cursor becomes (i+1) mod N; a wrap adds one lap and appends the current time; completion is reported iff a wrap happens with lap ≥ laps, carrying the time and the extended lap times |
| `Race.InitialLapBook` | apps/web/src/hooks/useGameLogic.js:17-27 | the initial state satisfies lap = 1 + \|lapTimes\|, with non-decreasing entries bounded by the time |
| `Race.TimerKeepsLapBook` | apps/web/src/hooks/useGameLogic.js:131-135 | a non-negative timer step keeps the lap bookkeeping |
| `Race.CheckpointKeepsLapBook` | apps/web/src/hooks/useGameLogic.js:54-70 | the checkpoint check keeps lap = 1 + \|lapTimes\| and the entries non-decreasing |
| `Race.WrapAdvancesDue` | apps/web/src/hooks/useGameLogic.js:54-70 | a call adds one to the reports due exactly when it reports completion, so every later wrap reports again |
| `Race.CompletionCarriesEveryLap` | apps/web/src/hooks/useGameLogic.js:56-69 | a report carries max(laps,1) plus the earlier reports' count of lap times, equal to the new lap times, and the lap then exceeds the configured count |
| `Track.LayoutOf` | apps/web/src/components/GameEngine/scene/createTrack.js:7-50 | the three built-in ids select their layouts and every other id the square default |
| `Track.FiveSamplesKept` | apps/web/src/components/GameEngine/scene/createTrack.js:8-48 | the samples 0..n whose index is a multiple of the stride are exactly the five multiples 0..4·stride, the last one being n |
| `Track.CollectCheckpointSamples` | apps/web/src/components/GameEngine/scene/createTrack.js:9-17 | the sampling loop keeps five indices, the j-th being j·stride and the last the final sample |
| `Track.CheckpointAt` | apps/web/src/components/GameEngine/scene/createTrack.js:15-57 | a checkpoint keeps the sample's x and z, at height 5, or 5 above the sample on hyper-overpass |
| `Track.GenerateCheckpoints` | apps/web/src/components/GameEngine/scene/createTrack.js:3-61 | a built-in layout yields five checkpoints at the kept samples; the default yields the four square corners at height 5 |
| `Track.LastCheckpointIsFirst` | apps/web/src/components/GameEngine/scene/createTrack.js:9-46 | for a centreline periodic in whole turns, the fifth checkpoint coincides with the first |
| `Track.CreateTrack` | apps/web/src/components/GameEngine/scene/createTrack.js:194-245 | the result is never empty: five checkpoints for a built-in track, four otherwise, and the fixed fallback list when building throws |
| `Decimal.NatToString` | apps/web/src/components/GameEngine/ui/GameStats.jsx:8 | a non-empty digit string without a leading zero unless the number is 0 |
| `Decimal.ParseNatToString` | apps/web/src/components/GameEngine/ui/GameStats.jsx:8 | the digit string reads back as the number |
| `Decimal.ParseIgnoresLeadingZeros` | apps/web/src/components/GameEngine/ui/GameStats.jsx:8 | zero padding does not change the value read |
| `Decimal.IntToStringReadsBack` | apps/web/src/components/GameEngine/ui/GameStats.jsx:8 | a non-negative integer's text is all digits and reads back as the integer; a negative one's is "-" followed by digits that read back as its magnitude |
| `Hud.Rem` | apps/web/src/components/GameEngine/ui/GameStats.jsx:8 | the remainder takes the sign of the dividend and is below the divisor in magnitude; for a non-negative time it is t - 60·floor(t/60) |
| `Hud.Tenths` | apps/web/src/components/GameEngine/ui/GameStats.jsx:8 | the count of tenths is the value times 10 rounded half up |
| `Hud.TenthsText` | apps/web/src/components/GameEngine/ui/GameStats.jsx:8 | one-decimal text: digits, a point, one digit |
| `Hud.PadStart` | apps/web/src/components/GameEngine/ui/GameStats.jsx:8 | the result has at least the width, ends with the input and is filled before it |
| `Hud.PaddedTenthsRoundTrip` | apps/web/src/components/GameEngine/ui/GameStats.jsx:8 | the padded seconds field reads back as the tenths it was written from |
| `Hud.FormatTimeReadsBack` | apps/web/src/components/GameEngine/ui/GameStats.jsx:7-9 | the clock reads back as minutes floor(t/60) and a seconds field of (t mod 60) rounded to tenths |
| `Hud.SixtySecondsShown` | apps/web/src/components/GameEngine/ui/GameStats.jsx:8 | 59.96 seconds is shown as "0:60.0" |
| `Hud.SixtySecondsField` | apps/web/src/components/GameEngine/ui/GameStats.jsx:8 | at 59.96 seconds the seconds field reads 600 tenths under 0 minutes |
| `Hud.FormatTimeCarriedReadsBack` | apps/web/src/components/GameEngine/ui/GameStats.jsx:8 | the carried clock reads back as minutes and a seconds field below 60.0 that make up the time rounded to tenths |
| `Hud.CarriedAtSixty` | apps/web/src/components/GameEngine/ui/GameStats.jsx:8 | the carried clock shows 59.96 seconds as "1:00.0" |
| `Hud.DisplayLap` | apps/web/src/components/GameEngine/ui/GameStats.jsx:48 | the shown lap never exceeds the configured laps, and is the lap itself until then |
| `Records.UpdateSettings` | apps/web/src/app/page.jsx:36-37 | supplied keys take the supplied values and every other setting is kept |
| `Records.UpdateSettingsComposes` | apps/web/src/app/page.jsx:36-37 | applying two patches in turn is applying their merge once |
| `Records.EmptyPatchKeepsSettings` | apps/web/src/app/page.jsx:36-37 | an empty patch leaves the settings as they were |
| `Records.SaveLapTime` | apps/web/src/app/page.jsx:39-49 | the time is stored under `track-bike` when there is no best, the best is 0, or the time is strictly lower; otherwise nothing changes; other keys never change |
| `Records.BestOnlyImproves` | apps/web/src/app/page.jsx:42-47 | a non-zero best never gets worse, and a stored 0 is replaced by any time |
| `Records.MinOf` | apps/web/src/app/page.jsx:162 | the minimum is an element and no element is smaller |
| `Records.BestIsMinimumOfSaves` | apps/web/src/app/page.jsx:39-49 | saving positive times one by one from no entry keeps their minimum |
| `Records.SaveGhostData` | apps/web/src/app/page.jsx:51-54 | the key's entry is overwritten unconditionally and other keys are kept |
| `Records.GhostLastWriteWins` | apps/web/src/app/page.jsx:51-54 | saving ghost data twice for one pair keeps only the second |
| `Records.HandleGameComplete` | apps/web/src/app/page.jsx:159-164 | nothing is saved for no lap times; otherwise the store becomes exactly the save of the least reported time under the selected track and bike |
| `Records.SavedBestIsFirstLap` | apps/web/src/app/page.jsx:159-164 | for the non-decreasing cumulative lap times a race reports, the saved value is the first entry |
| `Records.FirstLapSavedNotFastest` | apps/web/src/app/page.jsx:162 | laps of 30, 20 and 20 seconds save 30 although the fastest lap took 20 |
| `Records.DurationsPrefixSums` | apps/web/src/hooks/useGameLogic.js:68 | the durations of the first i+1 laps add up to the i-th cumulative time, so they are exactly the laps the cumulative times record |
| `Records.DurationsSumToTotal` | apps/web/src/hooks/useGameLogic.js:68 | the lap durations add up to the last cumulative time |
| `Records.HandleGameCompleteByLap` | apps/web/src/app/page.jsx:159-164 | the store becomes exactly the save of the least lap duration, a lap's duration no other lap beats |
| `Records.Split` | apps/web/src/app/page.jsx:128 | the fields contain no dash and joined with dashes give back the key |
| `Records.ReloadKeepsDashFreeKeys` | apps/web/src/app/page.jsx:127-130 | when neither id contains a dash the reloaded key is the saved key |
| `Records.ReloadKeepsOnlyTrack` | apps/web/src/app/page.jsx:127-130 | a key of two dashed ids is reloaded under the track id alone |
| `Records.ShippedKeysAreMangled` | apps/web/src/app/page.jsx:127-130 | for every shipped track and bike, the reloaded key is the track id and differs from the saved key |
| `Records.DashedKeysAreMangled` | apps/web/src/app/page.jsx:127-130 | whenever the track or bike id contains a dash, the reloaded key differs from the saved key |
| `Records.ReloadStep` | apps/web/src/app/page.jsx:127-131 | one save under an entry's key keeps the reload's key set, its untouched values, the origin of every value and the bound by positive saved times |
| `Records.Reload` | apps/web/src/app/page.jsx:123-134 | after the loop over all entries, the reload's key set, untouched values, value origins and bounds hold |
| `Records.ReloadLapTimes` | apps/web/src/app/page.jsx:123-134 | the keys are the old keys plus each entry's reload key; untouched keys keep their values; every value is an earlier best or a time saved under its key; with positive saved times, each reload key holds a non-zero time no higher than any saved under it |
| `Records.ReloadKnownRoundTrip` | apps/web/src/app/page.jsx:127-130 | splitting on a known track id recovers the track and bike of every shipped key |
| `Records.KnownTrackKeyRoundTrip` | apps/web/src/app/page.jsx:127-130 | any key that starts with a shipped track id and a dash is rebuilt as itself by the corrected split |
| `Records.ReloadLapTimesKnown` | apps/web/src/app/page.jsx:123-134 | the corrected reload keeps every saved shipped-track key under itself, with the same key set, frame, value origins and bounds as the loop as written |
| `Records.StartGame` | apps/web/src/app/page.jsx:153-157 | the selected track and bike are copied into the settings, other settings stay, and the screen becomes "game" |
| `Engine.Start` | apps/web/src/components/GameEngine.jsx:148-311 | without the mount element nothing happens; without WebGL the error is "WebGL not supported on this device"; a fault while building the scene gives "Initialization failed: " and its message; only otherwise does the race wait at countdown 5, the vehicle at rest, the camera at its base field of view, no key, touch or tilt recorded and no orientation permission, on the track's or the fallback checkpoints |
| `Engine.ViewOf` | apps/web/src/components/GameEngine.jsx:321-365 | the error screen shows whenever there is an error; the game view, the only one holding the mount element, shows exactly when there is none and initialisation finished |
| `Engine.AsWrittenNeverLeavesLoading` | apps/web/src/components/GameEngine.jsx:149 | however often initialisation runs, the component stays uninitialised on the loading screen, with or without WebGL |
| `Engine.CorrectedMount` | apps/web/src/components/GameEngine.jsx:148-156 | with the mount element always rendered, one run shows the game exactly when WebGL exists and nothing throws, and otherwise the screen naming the reason |
| `Engine.FrameDelta` | apps/web/src/components/GameEngine.jsx:104 | the step is the clock delta capped at 0.1: the delta itself up to 0.1, never more, and non-negative for a non-negative delta |
| `Engine.EaseFov` | apps/web/src/components/GameEngine.jsx:90-93 | each camera update closes 2% of the gap to base + (speed/200)·spread |
| `Engine.EaseFovStaysInRange` | apps/web/src/components/GameEngine.jsx:91-93 | for speeds up to 200 the field of view stays between base and base + spread |
| `Engine.Drive` | apps/web/src/hooks/useGameLogic.js:75-129 | the vehicle and the HUD speed and drift come from one physics step on the session's intent; the cursor is the one the checkpoint check computes at the stepped position; the time and countdown stay; a wrap adds a lap and the current time; a report is appended exactly on a wrap at or past the configured laps, carrying the time, the extended lap times and the configured track and bike; the inputs, checkpoints, field of view, exit request, boost and position stay as they were |
| `Engine.Frame` | apps/web/src/components/GameEngine.jsx:103-107 | before the start only the camera moves; after it the time grows by the capped step, the vehicle, HUD speed and drift are those of one physics step on the capped step, and the cursor and race state are those of the checkpoint check run at the stepped position on the timed race; inputs never change; a report is appended exactly when that check makes one, carrying the advanced time, and earlier reports are kept |
| `Engine.Animate` | apps/web/src/components/GameEngine.jsx:100-128 | without scene, renderer and camera the frame does nothing and schedules nothing; otherwise it runs and schedules the next frame |
| `Engine.LongStallIsOneCappedFrame` | apps/web/src/components/GameEngine.jsx:104 | any stall of 0.1s or more is simulated exactly as one 0.1s step |
| `Engine.Handle` | apps/web/src/hooks/useInput.js:39-49 | each event goes to its handler: a frame runs the frame, a desktop key updates the flags as delivered, a touch presses or releases its control, a tilt sample is stored as the tilt handler stores it, a permission answer updates the grant; KeyR and the reset button park the vehicle, Escape requests leaving, key events on mobile change nothing, and only frames change the time, cursor or completions |
| `Engine.StartSatisfiesInvariant` | apps/web/src/hooks/useGameLogic.js:17-27 | a freshly started session satisfies the session invariant |
| `Engine.DriveKeepsInvariant` | apps/web/src/hooks/useGameLogic.js:75-129 | a physics step and checkpoint check keep the session invariant |
| `Engine.FrameKeepsInvariant` | apps/web/src/components/GameEngine.jsx:100-129 | a frame with a non-negative delta keeps the session invariant |
| `Engine.HandleKeepsInvariant` | apps/web/src/components/GameEngine.jsx:35-60 | every input event keeps the session invariant |
| `Engine.RunKeepsInvariant` | apps/web/src/hooks/useGameLogic.js:44-73 | the session invariant holds after any sequence of events |
| `Engine.EveryRunReportsFullRaces` | apps/web/src/hooks/useGameLogic.js:54-70 | from start-up, the first report carries exactly max(laps,1) lap times, is made only past the configured laps, the vehicle stays parked until the start, and the HUD speed stays within 0..720 |
| `Reach.CheckStaysBehind` | apps/web/src/hooks/useGameLogic.js:44-73 | from the line x = 0 the check never moves the cursor past a checkpoint 30 or more off that line, and reports nothing |
| `Reach.FrameKeepsStranded` | apps/web/src/hooks/useGameLogic.js:93-129 | a frame keeps the vehicle on x = 0 and the cursor behind the off-axis checkpoint, and appends no report |
| `Reach.HandleKeepsStranded` | apps/web/src/hooks/useInput.js:39-46 | every event, the reset to the origin included, keeps the vehicle on x = 0 and the cursor behind the off-axis checkpoint, and appends no report |
| `Reach.RunKeepsStranded` | apps/web/src/hooks/useGameLogic.js:93-117 | no sequence of events takes the vehicle off x = 0 or past the off-axis checkpoint, and no report is made |
| `Reach.TrackHasOffAxisCheckpoint` | apps/web/src/components/GameEngine/scene/createTrack.js:7-57 | every checkpoint list has a checkpoint 30 or more off x = 0: the fallback list's and the square's second, a built-in layout's first |
| `Reach.NoRaceEverCompletes` | apps/web/src/hooks/useGameLogic.js:93-117 | from start-up, whatever the events, no race-complete report is ever made |
| `Reach.SteeredStep` | apps/web/src/hooks/useGameLogic.js:107-117 | the step that applies the velocity along the heading keeps the step's speed, drag, turning and HUD values |
| `Reach.SteeredStepAhead` | apps/web/src/hooks/useGameLogic.js:107-117 | facing straight ahead, the steered step is the step as written |
| `Reach.SteeredStepCoversSameDistance` | apps/web/src/hooks/useGameLogic.js:107-117 | for a unit direction, the steered step covers the same distance as the step as written |
| `Reach.SteeringLeavesTheAxis` | apps/web/src/hooks/useGameLogic.js:107-117 | the steered step changes x exactly when the heading has a sideways component, the vehicle moves and time passes |
| `Host.RaceReportsShellSelection` | apps/web/src/app/page.jsx:153-164 | in a race started from the shell, every report names the track and bike the shell selected and stored in its settings, and the handler, called with the shell's selection as the page calls it, saves a best time under that pair |

## Left out

- Rendering is not modelled: scene, lights, meshes, materials, shaders, the renderer, resize and disposal have no behaviour to state. The random shader-update throttle on mobile goes with them.
- Track centreline coordinates are not modelled: the trigonometric curves are a parameter, and only the sample indices, counts, heights and the wrap-around to the first point are stated.
- Camera position smoothing and look-at are not modelled, because they are quaternion geometry; only the field of view is.
- The camera update's vehicle guard always passes, because mounting always installs a vehicle (a fallback mesh when building it throws).
- React scheduling is not modelled: timeouts, animation-frame callbacks, effect cleanup, stale closures and double-invoked state updaters. Events are applied in order, one at a time, and queued state updates run in the order they were issued.
- Persistence is not modelled: local storage and JSON. The reload receives the saved entries as a sequence, and settings loading is `UpdateSettings` with the parsed object.
- Device detection is not modelled: user agent, viewport, touch support and fullscreen. `isMobile` is fixed for a session.
- The asynchronous permission prompt is not modelled; only its answer is.
- Floating point is not modelled: arithmetic is over exact reals. NaN, IEEE rounding of `toFixed` and exponent notation for times of 1e21 seconds or more are left out.
- `boost` and `position` never change from 100 and 1. The invariant states this. Nothing in the simulation reads them; the HUD only displays them.
- Menus, settings screens and presentational components are not modelled: HUD, countdown overlay, drift indicator, buttons.
- Engine.FrameKeepsInvariant: needs the clock's delta to be non-negative, which the monotonic clock guarantees but the model takes as given.
- Reach.NoRaceEverCompletes: takes as given that a built-in layout's first sample lies 30 or more off x = 0, because the centreline is a parameter; the source's curves put it at x = 300, 350 and 200.
- Reach.SteeredStep: takes the sine and cosine of the heading as a parameter. It is not wired into the engine, which keeps the step as written. That a race with the steered step can complete is not proved.
- Two behaviours of the code are modelled as they are, though a player might expect otherwise:
  - neon-circuit yields five checkpoints, the last a full turn after the first and so at the same place;
  - completion is reported again on every later wrap, since there is no finished state.

## Findings

| source | as written | input that shows it | evidently intended | confidence | as-written member | corrected member |
|---|---|---|---|---|---|---|
| apps/web/src/app/page.jsx:127-130 | the reload loop rebuilds each key from the first two `-`-separated fields | key "neon-circuit-vapor-v1" is re-stored as "neon-circuit"; every shipped track and bike id contains a dash | re-store each best time under its own key | high, not executed | `Records.ShippedKeysAreMangled` | `Records.ReloadKnownRoundTrip` |
| apps/web/src/components/GameEngine/ui/GameStats.jsx:8 | the seconds field is rounded after taking the remainder, so no minute is carried | 59.96 seconds shows "0:60.0" | "1:00.0" | high, not executed | `Hud.SixtySecondsShown` | `Hud.FormatTimeCarriedReadsBack` |
| apps/web/src/components/GameEngine.jsx:149 | initialisation returns early without the mount element, which is only rendered once initialisation has finished | any mount: every run of the effect sees no mount element, so the loading screen never goes away | render the mount element in every state, so the first run initialises | high, not executed | `Engine.AsWrittenNeverLeavesLoading` | `Engine.CorrectedMount` |
| apps/web/src/hooks/useGameLogic.js:107-117 | the forward vector computed from the heading is never used; the velocity changes only along z and moves the position along z, so the vehicle, which starts and resets at the origin, stays on x = 0, while every checkpoint list has a checkpoint 30 or more off that line | any race: neon-circuit's first checkpoint is at x = 300 and the fallback list's second at x = 100, so the cursor never passes it and the race-complete handler is never called | apply the velocity along the heading, so turning steers | high that no lap completes; the intended motion is plausible; not executed | `Reach.NoRaceEverCompletes` | `Reach.SteeringLeavesTheAxis` |
| apps/web/src/app/page.jsx:159-164 | the "best lap" is the minimum of cumulative lap times, which is always the first lap's time | laps of 30, 20 and 20 seconds are reported as [30, 50, 70] and 30 is saved | save the fastest single lap, 20 | medium, not executed | `Records.FirstLapSavedNotFastest` | `Records.HandleGameCompleteByLap` |

No race completes as written, so the page.jsx findings above are reached only
once the motion is corrected.

=== FILE: decimal.dfy ===
/** Decimal numerals: rendering of naturals and integers, and the parser that
    reads a rendered natural back. */
module Decimal {

  predicate IsDigit(c: char) {
    '0' <= c <= '9'
  }

  predicate AllDigits(s: string) {
    forall i :: 0 <= i < |s| ==> IsDigit(s[i])
  }

  function DigitChar(d: nat): (c: char)
    requires d < 10
    ensures IsDigit(c)
  {
    "0123456789"[d]
  }

  function DigitValue(c: char): (d: nat)
    requires IsDigit(c)
    ensures d < 10
  {
    (c - '0') as nat
  }

  lemma DigitRoundTrip(d: nat)
    requires d < 10
    ensures DigitValue(DigitChar(d)) == d
  {
  }

  /** The shortest decimal numeral of `n`. */
  function NatToString(n: nat): (s: string)
    ensures |s| >= 1 && AllDigits(s)
    ensures n > 0 ==> s[0] != '0'
  {
    if n < 10 then [DigitChar(n)] else NatToString(n / 10) + [DigitChar(n % 10)]
  }

  function ParseNat(s: string): nat
    requires AllDigits(s)
  {
    if |s| == 0 then 0 else ParseNat(s[..|s| - 1]) * 10 + DigitValue(s[|s| - 1])
  }

  /** Reading a rendered natural gives it back. */
  lemma {:induction false} ParseNatToString(n: nat)
    ensures ParseNat(NatToString(n)) == n
  {
    if n >= 10 {
      var s := NatToString(n);
      ParseNatToString(n / 10);
      assert s[..|s| - 1] == NatToString(n / 10);
      DigitRoundTrip(n % 10);
    } else {
      DigitRoundTrip(n);
    }
  }

  function Zeros(k: nat): (s: string)
    ensures |s| == k && AllDigits(s)
    ensures forall i :: 0 <= i < k ==> s[i] == '0'
  {
    if k == 0 then [] else Zeros(k - 1) + ['0']
  }

  /** Leading zeros do not change the value of a numeral. */
  lemma {:induction false} ParseIgnoresLeadingZeros(k: nat, s: string)
    requires AllDigits(s)
    ensures AllDigits(Zeros(k) + s)
    ensures ParseNat(Zeros(k) + s) == ParseNat(s)
  {
    var z := Zeros(k) + s;
    if |s| == 0 {
      assert z == Zeros(k);
      ParseZeros(k);
    } else {
      var n := |s| - 1;
      ParseIgnoresLeadingZeros(k, s[..n]);
      assert z[..|z| - 1] == Zeros(k) + s[..n];
      assert z[|z| - 1] == s[n];
    }
  }

  lemma {:induction false} ParseZeros(k: nat)
    ensures ParseNat(Zeros(k)) == 0
  {
    if k > 0 {
      ParseZeros(k - 1);
      assert Zeros(k)[..k - 1] == Zeros(k - 1);
    }
  }

  /** `String(i)` for an integer. */
  function IntToString(i: int): (s: string)
    ensures i >= 0 ==> s == NatToString(i)
    ensures i < 0 ==> s == "-" + NatToString(-i)
  {
    if i < 0 then "-" + NatToString(-i) else NatToString(i)
  }

  /** The numeral of an integer reads back as the integer: digits alone
      for a non-negative one, a minus sign before the magnitude otherwise. */
  lemma IntToStringReadsBack(i: int)
    ensures i >= 0 ==> AllDigits(IntToString(i)) && ParseNat(IntToString(i)) == i
    ensures i < 0 ==> && |IntToString(i)| >= 2 && IntToString(i)[0] == '-'
                      && AllDigits(IntToString(i)[1..]) && ParseNat(IntToString(i)[1..]) == -i
  {
    if i >= 0 {
      ParseNatToString(i);
    } else {
      ParseNatToString(-i);
      assert IntToString(i)[1..] == NatToString(-i);
    }
  }
}

=== FILE: engine.dfy ===
/**
 The race session as the engine runs it: start-up (with the WebGL check and
 the fallback checkpoints), the per-frame pipeline (capped step, timer,
 physics, checkpoint check, camera field of view) and the input events that
 reach the session between frames. A sequence of events is replayed with
 `Run`, and `SessionInv` is the invariant every reachable session keeps.
 */
module Engine {

  import opened Geometry
  import opened Options
  import opened Keyboard
  import opened MobileControls
  import opened Intent
  import opened Physics
  import opened Race
  import opened Track

  /** The longest step a frame simulates, in seconds. */
  const FrameCap: real := 0.1
  /** Share of the gap to the target field of view closed per frame. */
  const FovEase: real := 0.02

  const WebGLMessage: string := "WebGL not supported on this device"

  /** The error shown when building the scene throws. */
  function FaultMessage(m: string): string {
    "Initialization failed: " + m
  }

  function BaseFov(isMobile: bool): real {
    if isMobile then 70.0 else 60.0
  }

  /** How much wider the view gets at full speed. */
  function FovSpread(isMobile: bool): real {
    if isMobile then 10.0 else 20.0
  }

  /** What a mounted engine is configured with; `isMobile` is fixed for the
      session. */
  datatype Config = Config(isMobile: bool, laps: int, track: string, bike: string)

  datatype Session = Session(
    race: RaceState, vehicle: Vehicle, cursor: nat, checkpoints: seq<Vec3>, fov: real,
    keys: KeyState, touches: TouchState, permitted: bool, orientation: Orientation,
    completions: seq<Completion>, exitRequested: bool)

  /** The outcome of running the engine's initialisation. */
  datatype Launch = Running(session: Session) | InitFailed(message: string) | Loading

  /** Initialisation: without a mount element it returns and changes
      nothing; without WebGL the engine reports the error and never starts
      its loop; an exception while building the scene (`initFault`) is
      reported with its message; otherwise the race waits at the start of
      its countdown on the track's checkpoints, or on the fallback ones when
      building the track throws (that exception is caught on its own). */
  function Start(cfg: Config, mounted: bool, webgl: bool, initFault: Option<string>,
                 curve: (Layout, real) -> Vec3, buildFails: bool): (r: Launch)
    ensures !mounted <==> r == Loading
    ensures mounted && !webgl <==> r == InitFailed(WebGLMessage)
    ensures mounted && webgl && initFault.Some? <==> r.InitFailed? && r != InitFailed(WebGLMessage)
    ensures mounted && webgl && initFault.Some? ==> r == InitFailed(FaultMessage(initFault.value))
    ensures r.Running? <==> mounted && webgl && initFault.None?
    ensures r.Running? ==>
      && r.session.race == Initial
      && r.session.vehicle == AtRest
      && r.session.cursor == 0
      && r.session.fov == BaseFov(cfg.isMobile)
      && r.session.completions == []
      && !r.session.exitRequested
      && r.session.keys == Released && r.session.touches == Untouched
      && !r.session.permitted && r.session.orientation == Level
    ensures r.Running? && buildFails ==> r.session.checkpoints == FallbackCheckpoints
    ensures r.Running? && !buildFails ==> r.session.checkpoints == GenerateCheckpoints(LayoutOf(cfg.track), curve)
  {
    if !mounted then Loading
    else if !webgl then InitFailed(WebGLMessage)
    else if initFault.Some? then
      assert FaultMessage(initFault.value)[0] != WebGLMessage[0];
      InitFailed(FaultMessage(initFault.value))
    else
      Running(Session(Initial, AtRest, 0, CreateTrack(cfg.track, curve, buildFails), BaseFov(cfg.isMobile),
                      Released, Untouched, false, Level, [], false))
  }

  /** The component state that decides what it renders: the error message,
      if any, and whether initialisation finished. */
  datatype Mount = Mount(initError: Option<string>, isInitialized: bool)

  const Unmounted: Mount := Mount(None, false)

  /** What the component renders. */
  datatype View = ErrorView(message: string) | LoadingView | GameView

  /** The error screen wins, then the loading screen; only the game view
      holds the mount element. */
  function ViewOf(m: Mount): (v: View)
    ensures v == GameView <==> m.initError.None? && m.isInitialized
    ensures m.initError.Some? ==> v == ErrorView(m.initError.value)
  {
    if m.initError.Some? then ErrorView(m.initError.value)
    else if !m.isInitialized then LoadingView
    else GameView
  }

  /** The state after an initialisation attempt. */
  function Settle(m: Mount, l: Launch): (r: Mount)
    ensures l.Loading? ==> r == m
    ensures l.InitFailed? ==> r.initError == Some(l.message)
    ensures l.Running? ==> r.isInitialized && r.initError == m.initError
  {
    match l
    case Loading => m
    case InitFailed(msg) => m.(initError := Some(msg))
    case Running(_) => m.(isInitialized := true)
  }

  /** The component after `runs` runs of its initialisation effect, as
      written: each run sees the mount element only when the previous
      render was the game view. */
  function AsWrittenMount(cfg: Config, runs: nat, webgl: bool, initFault: Option<string>,
                          curve: (Layout, real) -> Vec3, buildFails: bool): Mount
  {
    if runs == 0 then Unmounted
    else
      var m := AsWrittenMount(cfg, runs - 1, webgl, initFault, curve, buildFails);
      Settle(m, Start(cfg, ViewOf(m) == GameView, webgl, initFault, curve, buildFails))
  }

  /** As written, the mount element is rendered only once initialisation
      has finished, and initialisation returns early without it: however
      often the effect runs, the component stays on the loading screen, on
      every device and whether or not WebGL is present. */
  lemma {:induction false} AsWrittenNeverLeavesLoading(cfg: Config, runs: nat, webgl: bool, initFault: Option<string>,
                                                       curve: (Layout, real) -> Vec3, buildFails: bool)
    ensures AsWrittenMount(cfg, runs, webgl, initFault, curve, buildFails) == Unmounted
    ensures ViewOf(AsWrittenMount(cfg, runs, webgl, initFault, curve, buildFails)) == LoadingView
  {
    if runs > 0 {
      AsWrittenNeverLeavesLoading(cfg, runs - 1, webgl, initFault, curve, buildFails);
    }
  }

  /** Corrected: the mount element is rendered whatever the state, so the
      first run of the effect initialises. With WebGL and no fault the game
      view shows; otherwise the error screen shows the reason. */
  function CorrectedMount(cfg: Config, webgl: bool, initFault: Option<string>,
                          curve: (Layout, real) -> Vec3, buildFails: bool): (r: Mount)
    ensures ViewOf(r) == GameView <==> webgl && initFault.None?
    ensures !webgl ==> ViewOf(r) == ErrorView(WebGLMessage)
    ensures webgl && initFault.Some? ==> ViewOf(r) == ErrorView(FaultMessage(initFault.value))
  {
    Settle(Unmounted, Start(cfg, true, webgl, initFault, curve, buildFails))
  }

  /** The frame's step: the clock's delta, capped. */
  function FrameDelta(delta: real): (dt: real)
    ensures dt <= FrameCap && (dt == delta || dt == FrameCap)
    ensures delta <= FrameCap ==> dt == delta
    ensures 0.0 <= delta ==> 0.0 <= dt
  {
    if delta < FrameCap then delta else FrameCap
  }

  /** The field of view the camera eases towards at a given speed. */
  function TargetFov(isMobile: bool, speed: real): real {
    BaseFov(isMobile) + (speed / MaxSpeed) * FovSpread(isMobile)
  }

  /** One camera update: linear interpolation by FovEase towards the target. */
  function EaseFov(isMobile: bool, fov: real, speed: real): (f: real)
    ensures f - TargetFov(isMobile, speed) == (1.0 - FovEase) * (fov - TargetFov(isMobile, speed))
  {
    fov + (TargetFov(isMobile, speed) - fov) * FovEase
  }

  /** The intent the physics step reads from the session's inputs. */
  function IntentOf(cfg: Config, s: Session): ControlIntent {
    Merge(cfg.isMobile, s.keys, s.touches, SteeringInput(cfg.isMobile, s.permitted, s.orientation.gamma))
  }

  /** The physics step and the checkpoint check that follows it. */
  function Drive(cfg: Config, s: Session, dt: real): (r: Session)
    requires CursorValid(s.cursor, s.checkpoints)
    ensures CursorValid(r.cursor, r.checkpoints)
    ensures var step := Step(s.vehicle, IntentOf(cfg, s), dt);
      && r.vehicle == step.vehicle
      && r.cursor == CheckCheckpoints(s.cursor, s.checkpoints, step.vehicle.position,
                                      s.race.(speed := step.hudSpeed, isDrifting := step.drifting),
                                      cfg.laps, cfg.track, cfg.bike).cursor
      && r.race.speed == step.hudSpeed && r.race.isDrifting == step.drifting
      && r.race.time == s.race.time && r.race.countdown == s.race.countdown && r.race.isStarted == s.race.isStarted
      && (Wraps(s.cursor, s.checkpoints, step.vehicle.position) ==>
            r.race.lap == s.race.lap + 1 && r.race.lapTimes == s.race.lapTimes + [s.race.time])
      && (!Wraps(s.cursor, s.checkpoints, step.vehicle.position) ==>
            r.race.lap == s.race.lap && r.race.lapTimes == s.race.lapTimes)
      && (|r.completions| > |s.completions| <==>
            Wraps(s.cursor, s.checkpoints, step.vehicle.position) && s.race.lap >= cfg.laps)
    ensures r.checkpoints == s.checkpoints && r.keys == s.keys && r.touches == s.touches
    ensures r.permitted == s.permitted && r.orientation == s.orientation && r.fov == s.fov
    ensures r.exitRequested == s.exitRequested
    ensures r.race.boost == s.race.boost && r.race.position == s.race.position
    ensures |s.completions| <= |r.completions| <= |s.completions| + 1
    ensures r.completions[..|s.completions|] == s.completions
    ensures |r.completions| > |s.completions| ==>
      r.completions[|s.completions|] == Completion(s.race.time, s.race.lapTimes + [s.race.time], cfg.track, cfg.bike)
  {
    var step := Step(s.vehicle, IntentOf(cfg, s), dt);
    var shown := s.race.(speed := step.hudSpeed, isDrifting := step.drifting);
    var cc := CheckCheckpoints(s.cursor, s.checkpoints, step.vehicle.position, shown, cfg.laps, cfg.track, cfg.bike);
    s.(vehicle := step.vehicle, race := cc.race, cursor := cc.cursor,
       completions := s.completions + (if cc.completion.Some? then [cc.completion.value] else []))
  }

  /** One animation frame. Before the start only the camera moves; after it
      the timer, the physics and the checkpoint check run on the capped step.
      Inputs are never changed by a frame, and completions are only ever
      appended. */
  function Frame(cfg: Config, s: Session, delta: real): (r: Session)
    requires CursorValid(s.cursor, s.checkpoints)
    ensures CursorValid(r.cursor, r.checkpoints)
    ensures r.checkpoints == s.checkpoints && r.keys == s.keys && r.touches == s.touches
    ensures r.permitted == s.permitted && r.orientation == s.orientation && r.exitRequested == s.exitRequested
    ensures !s.race.isStarted ==>
      r.race == s.race && r.vehicle == s.vehicle && r.cursor == s.cursor && r.completions == s.completions
    ensures s.race.isStarted ==> r.race.time == s.race.time + FrameDelta(delta)
    ensures s.race.isStarted ==> var dt := FrameDelta(delta); var step := Step(s.vehicle, IntentOf(cfg, s), dt);
      && r.vehicle == step.vehicle
      && r.race.speed == step.hudSpeed && r.race.isDrifting == step.drifting
      && var cc := CheckCheckpoints(s.cursor, s.checkpoints, step.vehicle.position,
                                    UpdateTimer(s.race, dt).(speed := step.hudSpeed, isDrifting := step.drifting),
                                    cfg.laps, cfg.track, cfg.bike);
         && r.cursor == cc.cursor && r.race == cc.race
         && (|r.completions| > |s.completions| <==> cc.completion.Some?)
    ensures |r.completions| > |s.completions| ==>
      var t := s.race.time + FrameDelta(delta);
      r.completions[|s.completions|] == Completion(t, s.race.lapTimes + [t], cfg.track, cfg.bike)
    ensures r.fov - TargetFov(cfg.isMobile, Abs(r.vehicle.vz)) == (1.0 - FovEase) * (s.fov - TargetFov(cfg.isMobile, Abs(r.vehicle.vz)))
    ensures |s.completions| <= |r.completions| <= |s.completions| + 1
    ensures r.completions[..|s.completions|] == s.completions
  {
    var dt := FrameDelta(delta);
    var timed := s.(race := UpdateTimer(s.race, dt));
    var driven := if s.race.isStarted then Drive(cfg, timed, dt) else timed;
    driven.(fov := EaseFov(cfg.isMobile, s.fov, Abs(driven.vehicle.vz)))
  }

  /** What the frame callback did: the session after it, and whether it
      asked for another frame. */
  datatype FrameOutcome = FrameOutcome(session: Session, scheduled: bool)

  /** The frame callback. Without an attached scene, renderer and camera it
      does nothing and the loop ends; otherwise it runs the frame and asks
      for the next one. The state updates come before the draw, so a draw
      that throws changes neither. */
  function Animate(cfg: Config, s: Session, delta: real, attached: bool): (r: FrameOutcome)
    requires CursorValid(s.cursor, s.checkpoints)
    ensures !attached ==> r == FrameOutcome(s, false)
    ensures attached ==> r.scheduled && r.session == Frame(cfg, s, delta)
  {
    if !attached then FrameOutcome(s, false)
    else FrameOutcome(Frame(cfg, s, delta), true)
  }

  /** A stall of any length is simulated as a single capped step. */
  lemma LongStallIsOneCappedFrame(cfg: Config, s: Session, delta: real)
    requires CursorValid(s.cursor, s.checkpoints)
    requires delta >= FrameCap
    ensures Frame(cfg, s, delta) == Frame(cfg, s, FrameCap)
  {
  }

  /** The events that reach a running session. */
  datatype Event =
    | CountdownFired
    | AnimationFrame(delta: real)
    | KeyInput(key: KeyEvent)
    | TouchInput(control: Control, down: bool)
    | TiltInput(tilt: OrientationEvent)
    | PermissionAnswer(api: PermissionApi)
    | ResetPressed

  /** The monotonic clock never reports a negative delta. */
  predicate ClockSane(e: Event) {
    e.AnimationFrame? ==> e.delta >= 0.0
  }

  function Handle(cfg: Config, s: Session, e: Event): (r: Session)
    requires CursorValid(s.cursor, s.checkpoints)
    ensures CursorValid(r.cursor, r.checkpoints) && r.checkpoints == s.checkpoints
    ensures e.CountdownFired? ==> r == s.(race := CountdownTick(s.race))
    ensures e.AnimationFrame? ==> r == Frame(cfg, s, e.delta)
    ensures e.KeyInput? && !cfg.isMobile ==> r.keys == Deliver(false, s.keys, e.key).keys
    ensures e.TouchInput? ==>
      r == s.(touches := if e.down then TouchStart(s.touches, e.control) else TouchEnd(s.touches, e.control))
    ensures e.TiltInput? ==> r == s.(orientation := OnOrientation(s.orientation, cfg.isMobile, s.permitted, e.tilt))
    ensures e.PermissionAnswer? ==> r == s.(permitted := RequestPermission(s.permitted, e.api))
    ensures e.KeyInput? && cfg.isMobile ==> r == s
    ensures e.KeyInput? && e.key == Down(LeaveCode) && !cfg.isMobile ==> r.exitRequested
    ensures e.ResetPressed? || (e.KeyInput? && e.key == Down(ResetCode) && !cfg.isMobile) ==> r.vehicle == AtRest
    ensures e.ResetPressed? ==> r == s.(vehicle := AtRest)
    ensures e.KeyInput? ==> r.race == s.race && r.cursor == s.cursor && r.completions == s.completions
    ensures !e.AnimationFrame? ==> r.race.time == s.race.time && r.completions == s.completions && r.cursor == s.cursor
  {
    match e
    case CountdownFired => s.(race := CountdownTick(s.race))
    case AnimationFrame(delta) => Frame(cfg, s, delta)
    case KeyInput(key) =>
      var d := Deliver(cfg.isMobile, s.keys, key);
      s.(keys := d.keys,
         vehicle := if d.request == ResetRequest then Reset(s.vehicle, true) else s.vehicle,
         exitRequested := s.exitRequested || d.request == LeaveRequest)
    case TouchInput(c, down) => s.(touches := if down then TouchStart(s.touches, c) else TouchEnd(s.touches, c))
    case TiltInput(tilt) => s.(orientation := OnOrientation(s.orientation, cfg.isMobile, s.permitted, tilt))
    case PermissionAnswer(api) => s.(permitted := RequestPermission(s.permitted, api))
    case ResetPressed => s.(vehicle := Reset(s.vehicle, true))
  }

  /** Every reachable session: a valid cursor on a non-empty checkpoint
      list, the lap bookkeeping, the countdown, a vehicle parked until the
      start, the speed bound, the field of view between its base and its
      full-speed width, one completion report per lap finished at or beyond
      the configured count (the k-th carrying the first Max(laps,1)+k lap
      times), and no keyboard state on a mobile device. */
  predicate SessionInv(cfg: Config, s: Session) {
    && |s.checkpoints| > 0 && s.cursor < |s.checkpoints|
    && LapBook(s.race)
    && s.race.boost == 100 && s.race.position == 1
    && 0 <= s.race.countdown <= CountdownStart
    && (s.race.isStarted <==> s.race.countdown == 0)
    && (!s.race.isStarted ==>
          s.race.time == 0.0 && s.race.lap == 1 && s.race.speed == 0 && !s.race.isDrifting
          && s.cursor == 0 && s.vehicle == AtRest)
    && Abs(s.vehicle.vz) <= Drag * MaxSpeed
    && 0 <= s.race.speed <= 720
    && BaseFov(cfg.isMobile) <= s.fov <= BaseFov(cfg.isMobile) + FovSpread(cfg.isMobile)
    && |s.completions| == CompletionsDue(s.race.lap, cfg.laps)
    && (forall k :: 0 <= k < |s.completions| ==> CompletionReport(cfg, s.race.lapTimes, k, s.completions[k]))
    && (cfg.isMobile ==> s.keys == Released)
  }

  /** The k-th completion report: the first Max(laps,1)+k lap times, the
      last of them as the total. */
  predicate CompletionReport(cfg: Config, lapTimes: seq<real>, k: nat, c: Completion) {
    var n := Max(cfg.laps, 1) + k;
    n <= |lapTimes| && c == Completion(lapTimes[n - 1], lapTimes[..n], cfg.track, cfg.bike)
  }

  /** A running session starts inside the invariant. */
  lemma StartSatisfiesInvariant(cfg: Config, curve: (Layout, real) -> Vec3, buildFails: bool)
    ensures Start(cfg, true, true, None, curve, buildFails).Running?
    ensures SessionInv(cfg, Start(cfg, true, true, None, curve, buildFails).session)
  {
    InitialLapBook();
  }

  /** The field of view stays between its base and its full-speed width. */
  lemma EaseFovStaysInRange(isMobile: bool, fov: real, speed: real)
    requires BaseFov(isMobile) <= fov <= BaseFov(isMobile) + FovSpread(isMobile)
    requires 0.0 <= speed <= MaxSpeed
    ensures BaseFov(isMobile) <= EaseFov(isMobile, fov, speed) <= BaseFov(isMobile) + FovSpread(isMobile)
  {
    var t := TargetFov(isMobile, speed);
    assert BaseFov(isMobile) <= t <= BaseFov(isMobile) + FovSpread(isMobile) by {
      var q := speed / MaxSpeed;
      assert 0.0 <= q <= 1.0;
      if isMobile {
        assert t == 70.0 + q * 10.0;
      } else {
        assert t == 60.0 + q * 20.0;
      }
    }
  }

  /** The physics-and-checkpoint part of a frame keeps the invariant of a
      started race whose timer has just run. */
  lemma {:induction false} DriveKeepsInvariant(cfg: Config, s: Session, dt: real)
    requires SessionInv(cfg, s) && s.race.isStarted
    requires 0.0 <= dt <= FrameCap
    ensures SessionInv(cfg, Drive(cfg, s, dt))
  {
    var step := Step(s.vehicle, IntentOf(cfg, s), dt);
    ClampIdleInPlay(s.vehicle, IntentOf(cfg, s), dt);
    var shown := s.race.(speed := step.hudSpeed, isDrifting := step.drifting);
    assert LapBook(shown);
    var cc := CheckCheckpoints(s.cursor, s.checkpoints, step.vehicle.position, shown, cfg.laps, cfg.track, cfg.bike);
    CheckpointKeepsLapBook(s.cursor, s.checkpoints, step.vehicle.position, shown, cfg.laps, cfg.track, cfg.bike);
    WrapAdvancesDue(s.cursor, s.checkpoints, step.vehicle.position, shown, cfg.laps, cfg.track, cfg.bike);
    CompletionCarriesEveryLap(s.cursor, s.checkpoints, step.vehicle.position, shown, cfg.laps, cfg.track, cfg.bike);
    var r := Drive(cfg, s, dt);
    assert r.race == cc.race;
    var prior := s.completions;
    assert r.completions == prior + (if cc.completion.Some? then [cc.completion.value] else []);
    if Wraps(s.cursor, s.checkpoints, step.vehicle.position) {
      assert r.race.lapTimes == s.race.lapTimes + [s.race.time];
      forall k | 0 <= k < |r.completions|
        ensures CompletionReport(cfg, r.race.lapTimes, k, r.completions[k])
      {
        var n := Max(cfg.laps, 1) + k;
        if k < |prior| {
          assert CompletionReport(cfg, s.race.lapTimes, k, prior[k]);
          assert r.completions[k] == prior[k];
          assert r.race.lapTimes[..n] == s.race.lapTimes[..n];
          assert r.race.lapTimes[n - 1] == s.race.lapTimes[n - 1];
        } else {
          assert r.completions[k] == cc.completion.value;
          assert n == |r.race.lapTimes|;
          assert r.race.lapTimes[..n] == r.race.lapTimes;
        }
      }
    } else {
      assert r.completions == prior;
      assert r.race.lapTimes == s.race.lapTimes;
    }
  }

  /** A frame keeps the invariant. */
  lemma {:induction false} FrameKeepsInvariant(cfg: Config, s: Session, delta: real)
    requires SessionInv(cfg, s) && delta >= 0.0
    ensures SessionInv(cfg, Frame(cfg, s, delta))
  {
    var dt := FrameDelta(delta);
    var timed := s.(race := UpdateTimer(s.race, dt));
    TimerKeepsLapBook(s.race, dt);
    var driven := if s.race.isStarted then Drive(cfg, timed, dt) else timed;
    if s.race.isStarted {
      assert SessionInv(cfg, timed);
      DriveKeepsInvariant(cfg, timed, dt);
    }
    assert SessionInv(cfg, driven);
    EaseFovStaysInRange(cfg.isMobile, s.fov, Abs(driven.vehicle.vz));
  }

  /** Every event keeps the invariant. */
  lemma {:induction false} HandleKeepsInvariant(cfg: Config, s: Session, e: Event)
    requires SessionInv(cfg, s) && ClockSane(e)
    ensures SessionInv(cfg, Handle(cfg, s, e))
  {
    match e
    case AnimationFrame(delta) => FrameKeepsInvariant(cfg, s, delta);
    case CountdownFired =>
    case KeyInput(key) =>
    case TouchInput(c, down) =>
    case TiltInput(tilt) =>
    case PermissionAnswer(api) =>
    case ResetPressed =>
  }

  /** The session after a sequence of events, oldest first. */
  function Run(cfg: Config, s: Session, evs: seq<Event>): (r: Session)
    requires CursorValid(s.cursor, s.checkpoints)
    ensures CursorValid(r.cursor, r.checkpoints) && r.checkpoints == s.checkpoints
  {
    if |evs| == 0 then s else Handle(cfg, Run(cfg, s, evs[..|evs| - 1]), evs[|evs| - 1])
  }

  /** The invariant holds after any sequence of events from any session that
      satisfies it. */
  lemma {:induction false} RunKeepsInvariant(cfg: Config, s: Session, evs: seq<Event>)
    requires SessionInv(cfg, s)
    requires forall i :: 0 <= i < |evs| ==> ClockSane(evs[i])
    ensures SessionInv(cfg, Run(cfg, s, evs))
  {
    if |evs| > 0 {
      RunKeepsInvariant(cfg, s, evs[..|evs| - 1]);
      HandleKeepsInvariant(cfg, Run(cfg, s, evs[..|evs| - 1]), evs[|evs| - 1]);
    }
  }

  /** In any run from start-up: a completion is reported only after the
      configured number of laps, the first report carries exactly that many
      lap times, and the vehicle has not moved while the countdown runs. */
  lemma EveryRunReportsFullRaces(cfg: Config, curve: (Layout, real) -> Vec3, buildFails: bool, evs: seq<Event>)
    requires forall i :: 0 <= i < |evs| ==> ClockSane(evs[i])
    ensures var r := Run(cfg, Start(cfg, true, true, None, curve, buildFails).session, evs);
      && (|r.completions| > 0 ==> r.race.lap > cfg.laps && |r.completions[0].lapTimes| == Max(cfg.laps, 1))
      && (!r.race.isStarted ==> r.vehicle == AtRest && r.race.time == 0.0)
      && 0 <= r.race.speed <= 720
  {
    var s := Start(cfg, true, true, None, curve, buildFails).session;
    StartSatisfiesInvariant(cfg, curve, buildFails);
    RunKeepsInvariant(cfg, s, evs);
    var r := Run(cfg, s, evs);
    if |r.completions| > 0 {
      assert CompletionReport(cfg, r.race.lapTimes, 0, r.completions[0]);
    }
  }
}

=== FILE: geometry.dfy ===
/**
 Exact-real three-vectors standing in for the renderer's vector type. Only
 the operations the simulation reads are modelled: the squared distance used
 by the checkpoint proximity test.
 */
module Geometry {

  datatype Vec3 = Vec3(x: real, y: real, z: real)

  const Origin: Vec3 := Vec3(0.0, 0.0, 0.0)

  function Square(a: real): (r: real)
    ensures r >= 0.0
  {
    a * a
  }

  /** Squared Euclidean distance. Comparing it against a squared radius
      replaces the square root of the renderer's distance function. */
  function SqDist(a: Vec3, b: Vec3): (d: real)
    ensures d >= 0.0
    ensures a == b ==> d == 0.0
    ensures d >= Square(a.x - b.x) && d >= Square(a.y - b.y) && d >= Square(a.z - b.z)
  {
    Square(a.x - b.x) + Square(a.y - b.y) + Square(a.z - b.z)
  }

  /** For a non-negative length `len` whose square is `sq`, `len < r` and
      `sq < r * r` agree; this is why the model compares squared distances. */
  lemma ShorterIffSquareSmaller(len: real, sq: real, r: real)
    requires len >= 0.0 && r >= 0.0 && len * len == sq
    ensures len < r <==> sq < r * r
  {
    if len < r {
      var below, between := len * len, len * r;
      assert below <= between < r * r;
    } else {
      var between, above := r * len, len * len;
      assert r * r <= between <= above;
    }
  }
}

=== FILE: host.dfy ===
/**
 The hand-over from the menu shell to the engine: the shell starts a race
 with its selected track and bike, the engine runs it under a configuration
 built from the same selection, and the completions it reports come back to
 the shell's race-complete handler.
 */
module Host {

  import opened Options
  import opened Geometry
  import opened Track
  import opened Records
  import Engine

  /** The engine's configuration for a started race: the shell's selected
      track and bike, the laps setting and the device kind. */
  function RaceConfig(shell: Shell, isMobile: bool, laps: int): Engine.Config {
    Engine.Config(isMobile, laps, shell.selectedTrack, shell.selectedBike)
  }

  /** Whatever happens during a race started from the shell, every reported
      completion names the track and bike the shell selected and stored in
      its settings, so the race-complete handler saves under that pair. */
  lemma RaceReportsShellSelection(shell: Shell, mode: string, isMobile: bool, laps: int,
                                  curve: (Layout, real) -> Vec3, buildFails: bool,
                                  evs: seq<Engine.Event>, best: BestTimes)
    requires forall i :: 0 <= i < |evs| ==> Engine.ClockSane(evs[i])
    ensures var started := StartGame(shell, mode);
      var cfg := RaceConfig(started, isMobile, laps);
      var r := Engine.Run(cfg, Engine.Start(cfg, true, true, None, curve, buildFails).session, evs);
      forall k :: 0 <= k < |r.completions| ==>
        && started.settings["track"] == Text(r.completions[k].track)
        && started.settings["bike"] == Text(r.completions[k].bike)
        && r.completions[k].track == shell.selectedTrack && r.completions[k].bike == shell.selectedBike
        && LapKey(shell.selectedTrack, shell.selectedBike)
             in HandleGameComplete(best, shell.selectedTrack, shell.selectedBike, r.completions[k].lapTimes)
  {
    var started := StartGame(shell, mode);
    var cfg := RaceConfig(started, isMobile, laps);
    var s := Engine.Start(cfg, true, true, None, curve, buildFails).session;
    Engine.StartSatisfiesInvariant(cfg, curve, buildFails);
    Engine.RunKeepsInvariant(cfg, s, evs);
    var r := Engine.Run(cfg, s, evs);
    forall k | 0 <= k < |r.completions|
      ensures LapKey(shell.selectedTrack, shell.selectedBike)
                in HandleGameComplete(best, shell.selectedTrack, shell.selectedBike, r.completions[k].lapTimes)
    {
      assert Engine.CompletionReport(cfg, r.race.lapTimes, k, r.completions[k]);
      assert |r.completions[k].lapTimes| > 0;
    }
  }
}

=== FILE: hud.dfy ===
/**
 The HUD's race clock and lap counter. The clock shows `m:ss.s`: the minutes
 are floor(t / 60), the seconds field is the remainder rounded to tenths and
 left-padded with '0' to four characters. The rounding happens after the
 remainder is taken, so the seconds field can read "60.0".
 */
module Hud {

  import opened Decimal

  const SecondsField: nat := 4

  /** `Math.trunc`: rounds toward zero. */
  function Trunc(x: real): int {
    if x >= 0.0 then x.Floor else -((-x).Floor)
  }

  /** The `%` operator on numbers: the remainder takes the dividend's sign. */
  function Rem(x: real, m: real): (r: real)
    requires m > 0.0
    ensures x >= 0.0 ==> r == x - m * (x / m).Floor as real
    ensures x >= 0.0 ==> 0.0 <= r < m
    ensures x < 0.0 ==> -m < r <= 0.0
  {
    RemBounds(x, m);
    x - m * Trunc(x / m) as real
  }

  lemma RemBounds(x: real, m: real)
    requires m > 0.0
    ensures x >= 0.0 ==> 0.0 <= x - m * Trunc(x / m) as real < m
    ensures x < 0.0 ==> -m < x - m * Trunc(x / m) as real <= 0.0
  {
    var q := x / m;
    var k := Trunc(q) as real;
    var mq, mk := m * q, m * k;
    assert mq == x;
    if x >= 0.0 {
      assert k <= q < k + 1.0;
      var below, above := q - k, k + 1.0 - q;
      assert m * below >= 0.0 && m * below == mq - mk;
      assert m * above > 0.0 && m * above == mk + m - mq;
      assert mk <= mq < mk + m;
    } else {
      assert k - 1.0 < q <= k;
      var below, above := q - (k - 1.0), k - q;
      assert m * below > 0.0 && m * below == mq - mk + m;
      assert m * above >= 0.0 && m * above == mk - mq;
      assert mk - m < mq <= mk;
    }
  }

  /** `toFixed(1)` on a non-negative value counts tenths, halves rounding up. */
  function Tenths(x: real): (n: nat)
    requires x >= 0.0
    ensures n as real <= 10.0 * x + 0.5 < n as real + 1.0
  {
    (10.0 * x + 0.5).Floor
  }

  /** A count of tenths written with one decimal place. */
  function TenthsText(n: nat): (s: string)
    ensures |s| >= 3 && s[|s| - 2] == '.'
    ensures AllDigits(s[..|s| - 2]) && IsDigit(s[|s| - 1])
  {
    NatToString(n / 10) + "." + [DigitChar(n % 10)]
  }

  /** `toFixed(1)`: a minus sign, then the magnitude. */
  function Fixed1(x: real): string {
    if x < 0.0 then "-" + TenthsText(Tenths(-x)) else TenthsText(Tenths(x))
  }

  /** `padStart(width, fill)`. */
  function PadStart(s: string, width: nat, fill: char): (r: string)
    ensures |r| == if |s| < width then width else |s|
    ensures r[|r| - |s|..] == s
    ensures forall i :: 0 <= i < |r| - |s| ==> r[i] == fill
  {
    if |s| < width then seq(width - |s|, _ => fill) + s else s
  }

  /** The HUD clock. */
  function FormatTime(t: real): string {
    IntToString((t / 60.0).Floor) + ":" + PadStart(Fixed1(Rem(t, 60.0)), SecondsField, '0')
  }

  /** Reads an `s.s` seconds field (digits, a point, one digit) as tenths. */
  function ParseTenths(s: string): nat
    requires |s| >= 3 && s[|s| - 2] == '.'
    requires AllDigits(s[..|s| - 2]) && IsDigit(s[|s| - 1])
  {
    ParseNat(s[..|s| - 2]) * 10 + DigitValue(s[|s| - 1])
  }

  /** `s` is a seconds field of at least four characters that reads as
      `tenths` tenths of a second. */
  predicate SecondsFieldReads(s: string, tenths: nat) {
    && |s| >= SecondsField && s[|s| - 2] == '.'
    && AllDigits(s[..|s| - 2]) && IsDigit(s[|s| - 1])
    && ParseTenths(s) == tenths
  }

  /** `f` is a clock reading: the minutes numeral, a colon, and a seconds
      field. */
  predicate ClockReads(f: string, minutes: nat, tenths: nat) {
    var mm := NatToString(minutes);
    && |f| > |mm| && f[..|mm|] == mm && f[|mm|] == ':'
    && SecondsFieldReads(f[|mm| + 1..], tenths)
  }

  /** A padded tenths field reads back as its count. */
  lemma PaddedTenthsRoundTrip(n: nat)
    ensures SecondsFieldReads(PadStart(TenthsText(n), SecondsField, '0'), n)
  {
    var t := TenthsText(n);
    var f := PadStart(t, SecondsField, '0');
    var k := |f| - |t|;
    assert f == Zeros(k) + t;
    var whole := NatToString(n / 10);
    assert f[..|f| - 2] == Zeros(k) + whole;
    ParseIgnoresLeadingZeros(k, whole);
    ParseNatToString(n / 10);
    DigitRoundTrip(n % 10);
  }

  lemma ColonSplit(mm: string, secs: string)
    ensures var f := mm + ":" + secs;
      f[..|mm|] == mm && f[|mm|] == ':' && f[|mm| + 1..] == secs
  {
  }

  /** For a non-negative time the clock reads as the minutes floor(t / 60)
      and the remainder t mod 60 rounded to tenths. */
  lemma FormatTimeReadsBack(t: real)
    requires t >= 0.0
    ensures (t / 60.0).Floor >= 0
    ensures ClockReads(FormatTime(t), (t / 60.0).Floor, Tenths(t - 60.0 * (t / 60.0).Floor as real))
  {
    var q := t / 60.0;
    var m := q.Floor;
    var r := Rem(t, 60.0);
    assert r >= 0.0 && r == t - 60.0 * m as real;
    var n := Tenths(r);
    var secs := PadStart(TenthsText(n), SecondsField, '0');
    PaddedTenthsRoundTrip(n);
    var mm := NatToString(m);
    assert FormatTime(t) == mm + ":" + secs;
    ColonSplit(mm, secs);
  }

  /** The rounding is applied after the remainder: at 59.96s the clock reads
      "0:60.0" rather than "1:00.0". */
  lemma SixtySecondsShown()
    ensures FormatTime(59.96) == "0:60.0"
  {
    assert (59.96 / 60.0).Floor == 0;
    assert Trunc(59.96 / 60.0) == 0;
    assert Rem(59.96, 60.0) == 59.96;
    assert Tenths(59.96) == 600;
    assert NatToString(60) == "60";
    assert TenthsText(600) == "60.0";
  }

  /** The same reading through the clock's own fields: 0 minutes and 600
      tenths of a second. */
  lemma SixtySecondsField()
    ensures ClockReads(FormatTime(59.96), 0, 600)
  {
    var t := 59.96;
    assert (t / 60.0).Floor == 0;
    assert t - 60.0 * 0 as real == t;
    assert Tenths(t) == 600;
    FormatTimeReadsBack(t);
  }

  /** The clock with the minute carried: rounds the whole time to tenths
      first, then splits into minutes and seconds. */
  function FormatTimeCarried(t: real): string
    requires t >= 0.0
  {
    var total := Tenths(t);
    NatToString(total / 600) + ":" + PadStart(TenthsText(total % 600), SecondsField, '0')
  }

  /** The carried clock reads back as minutes and a seconds field below
      60.0 that together make up the time rounded to tenths. */
  lemma FormatTimeCarriedReadsBack(t: real)
    requires t >= 0.0
    ensures ClockReads(FormatTimeCarried(t), Tenths(t) / 600, Tenths(t) % 600)
    ensures Tenths(t) % 600 < 600 && (Tenths(t) / 600) * 600 + Tenths(t) % 600 == Tenths(t)
  {
    var total := Tenths(t);
    var mm := NatToString(total / 600);
    var secs := PadStart(TenthsText(total % 600), SecondsField, '0');
    PaddedTenthsRoundTrip(total % 600);
    assert FormatTimeCarried(t) == mm + ":" + secs;
    ColonSplit(mm, secs);
  }

  lemma CarriedAtSixty()
    ensures FormatTimeCarried(59.96) == "1:00.0"
  {
    assert Tenths(59.96) == 600;
    assert NatToString(1) == "1";
    assert TenthsText(0) == "0.0";
  }

  /** The lap counter never shows more than the configured laps, although the
      lap number itself keeps growing after the finish. */
  function DisplayLap(lap: int, laps: int): (shown: int)
    ensures shown <= laps
    ensures shown == lap || shown == laps
    ensures lap <= laps ==> shown == lap
  {
    if lap > laps then laps else lap
  }
}

=== FILE: intent.dfy ===
/**
 The per-frame control intent: one of two input sources, chosen by device
 class, merged into a single record. Drift always comes from the keyboard.
 */
module Intent {

  import opened Keyboard
  import opened MobileControls

  datatype ControlIntent = ControlIntent(forward: bool, backward: bool, left: bool, right: bool, drift: bool)

  const Idle: ControlIntent := ControlIntent(false, false, false, false, false)

  /** On a mobile device the throttle comes from the buttons and steering
      from tilt; on the desktop everything comes from the keys. */
  function Merge(isMobile: bool, keys: KeyState, touches: TouchState, steering: Steering): (i: ControlIntent)
    ensures i.drift == keys.drift
    ensures isMobile ==> i.forward == touches.accelerate && i.backward == touches.brake
    ensures isMobile ==> i.left == steering.left && i.right == steering.right
    ensures !isMobile ==> i == ControlIntent(keys.forward, keys.backward, keys.left, keys.right, keys.drift)
  {
    ControlIntent(
      if isMobile then touches.accelerate else keys.forward,
      if isMobile then touches.brake else keys.backward,
      if isMobile then steering.left else keys.left,
      if isMobile then steering.right else keys.right,
      keys.drift)
  }

  /** The mobile intent ignores the touch state's own left/right buttons and
      the keyboard's movement flags; only drift leaks through from the keys. */
  lemma MobileIgnoresOtherSources(keys: KeyState, keys': KeyState, touches: TouchState, steering: Steering)
    requires keys.drift == keys'.drift
    ensures Merge(true, keys, touches, steering) == Merge(true, keys', touches.(left := !touches.left, right := !touches.right), steering)
  {
  }

  /** On a mobile device no key listener exists, so whatever key events
      occur the merged intent never asks for drift. */
  lemma MobileNeverDrifts(evs: seq<KeyEvent>, touches: TouchState, steering: Steering)
    ensures !Merge(true, Replay(true, Released, evs), touches, steering).drift
  {
    MobileKeysNeverChange(Released, evs);
  }

  /** Tilt steering reaches the intent only on a mobile device with
      permission; left and right then never both hold. */
  lemma SteeringThroughIntent(isMobile: bool, permitted: bool, gamma: real, keys: KeyState, touches: TouchState)
    ensures var i := Merge(isMobile, keys, touches, SteeringInput(isMobile, permitted, gamma));
      && (isMobile ==> !(i.left && i.right))
      && (isMobile && !permitted ==> !i.left && !i.right)
      && (isMobile ==> (i.left <==> permitted && gamma < -10.0))
      && (isMobile ==> (i.right <==> permitted && gamma > 10.0))
  {
  }
}

=== FILE: keyboard.dfy ===
/**
 The desktop key-state map. Key-down and key-up events set and clear one of
 six level-triggered flags; two key codes share each movement flag. Two more
 keys raise one-shot requests on key-down (reset the vehicle, leave the race)
 and change no flag. On a mobile device no key listener is registered at all.
 */
module Keyboard {

  datatype Flag = Forward | Backward | Left | Right | Drift | Boost

  datatype KeyState = KeyState(forward: bool, backward: bool, left: bool, right: bool, drift: bool, boost: bool)
  {
    function Get(f: Flag): bool {
      match f
      case Forward => forward
      case Backward => backward
      case Left => left
      case Right => right
      case Drift => drift
      case Boost => boost
    }

    /** The object-spread update `{ ...prev, [flag]: v }`. */
    function Set(f: Flag, v: bool): (s: KeyState)
      ensures s.Get(f) == v
      ensures forall g :: g != f ==> s.Get(g) == Get(g)
    {
      match f
      case Forward => this.(forward := v)
      case Backward => this.(backward := v)
      case Left => this.(left := v)
      case Right => this.(right := v)
      case Drift => this.(drift := v)
      case Boost => this.(boost := v)
    }
  }

  /** A key state is determined by its six flags. */
  lemma SameFlagsSameState(a: KeyState, b: KeyState)
    requires forall f :: a.Get(f) == b.Get(f)
    ensures a == b
  {
    assert a.Get(Forward) == b.Get(Forward) && a.Get(Backward) == b.Get(Backward);
    assert a.Get(Left) == b.Get(Left) && a.Get(Right) == b.Get(Right);
    assert a.Get(Drift) == b.Get(Drift) && a.Get(Boost) == b.Get(Boost);
  }

  /** The initial state: nothing held. */
  const Released: KeyState := KeyState(false, false, false, false, false, false)

  /** The key codes that drive each flag, as a table. */
  function CodesOf(f: Flag): set<string> {
    match f
    case Forward => {"KeyW", "ArrowUp"}
    case Backward => {"KeyS", "ArrowDown"}
    case Left => {"KeyA", "ArrowLeft"}
    case Right => {"KeyD", "ArrowRight"}
    case Drift => {"ShiftLeft"}
    case Boost => {"Space"}
  }

  /** The code that resets the vehicle and the code that leaves the race. */
  const ResetCode: string := "KeyR"
  const LeaveCode: string := "Escape"

  /** What a key code means to the handlers' `switch`. */
  datatype Binding = Holds(flag: Flag) | ResetVehicle | LeaveRace | Unbound

  function BindingOf(code: string): (b: Binding)
    ensures b.Holds? ==> code in CodesOf(b.flag)
    ensures forall f :: code in CodesOf(f) ==> b == Holds(f)
    ensures b == ResetVehicle <==> code == ResetCode
    ensures b == LeaveRace <==> code == LeaveCode
  {
    if code == "KeyW" || code == "ArrowUp" then Holds(Forward)
    else if code == "KeyS" || code == "ArrowDown" then Holds(Backward)
    else if code == "KeyA" || code == "ArrowLeft" then Holds(Left)
    else if code == "KeyD" || code == "ArrowRight" then Holds(Right)
    else if code == "ShiftLeft" then Holds(Drift)
    else if code == "Space" then Holds(Boost)
    else if code == "KeyR" then ResetVehicle
    else if code == "Escape" then LeaveRace
    else Unbound
  }

  /** One-shot side effects of a key-down, outside the flag map. */
  datatype Request = NoRequest | ResetRequest | LeaveRequest

  datatype KeyDownResult = KeyDownResult(keys: KeyState, request: Request)

  /** The key-down handler: a bound code sets its flag; KeyR and Escape
      raise their requests; anything else is ignored. */
  function KeyDown(s: KeyState, code: string): (r: KeyDownResult)
    ensures forall f :: r.keys.Get(f) == (code in CodesOf(f) || s.Get(f))
    ensures r.request == ResetRequest <==> code == ResetCode
    ensures r.request == LeaveRequest <==> code == LeaveCode
  {
    match BindingOf(code)
    case Holds(f) => KeyDownResult(s.Set(f, true), NoRequest)
    case ResetVehicle => KeyDownResult(s, ResetRequest)
    case LeaveRace => KeyDownResult(s, LeaveRequest)
    case Unbound => KeyDownResult(s, NoRequest)
  }

  /** The key-up handler: a bound code clears its flag; every other code,
      KeyR and Escape included, is ignored. */
  function KeyUp(s: KeyState, code: string): (r: KeyState)
    ensures forall f :: r.Get(f) == (code !in CodesOf(f) && s.Get(f))
  {
    match BindingOf(code)
    case Holds(f) => s.Set(f, false)
    case _ => s
  }

  /** Pressing or releasing the same key twice is the same as once. */
  lemma RepeatIsIdempotent(s: KeyState, code: string)
    ensures KeyDown(KeyDown(s, code).keys, code) == KeyDown(s, code)
    ensures KeyUp(KeyUp(s, code), code) == KeyUp(s, code)
  {
    var d := KeyDown(s, code).keys;
    SameFlagsSameState(KeyDown(d, code).keys, d);
    var u := KeyUp(s, code);
    SameFlagsSameState(KeyUp(u, code), u);
  }

  /** The two aliases of a flag share it: pressing KeyW and ArrowUp and then
      releasing only ArrowUp clears `forward`. */
  lemma AliasesShareOneFlag(s: KeyState)
    ensures !KeyUp(KeyDown(KeyDown(s, "KeyW").keys, "ArrowUp").keys, "ArrowUp").forward
  {
    assert "ArrowUp" in CodesOf(Forward);
  }

  datatype KeyEvent = Down(code: string) | Up(code: string)

  /** Delivery of one event to the registered listeners; on a mobile device
      none are registered and the event is lost. */
  function Deliver(isMobile: bool, s: KeyState, e: KeyEvent): (r: KeyDownResult)
    ensures isMobile ==> r == KeyDownResult(s, NoRequest)
    ensures e.Up? ==> r.request == NoRequest
  {
    if isMobile then KeyDownResult(s, NoRequest)
    else match e
      case Down(code) => KeyDown(s, code)
      case Up(code) => KeyDownResult(KeyUp(s, code), NoRequest)
  }

  /** The flag map after a sequence of events, delivered oldest first. */
  function Replay(isMobile: bool, s: KeyState, evs: seq<KeyEvent>): KeyState
  {
    if |evs| == 0 then s
    else Deliver(isMobile, Replay(isMobile, s, evs[..|evs| - 1]), evs[|evs| - 1]).keys
  }

  /** On a mobile device the flag map never leaves its initial state, so
      in particular `drift` stays false. */
  lemma {:induction false} MobileKeysNeverChange(s: KeyState, evs: seq<KeyEvent>)
    ensures Replay(true, s, evs) == s
  {
    if |evs| > 0 {
      MobileKeysNeverChange(s, evs[..|evs| - 1]);
    }
  }

  predicate Touches(e: KeyEvent, f: Flag) {
    e.code in CodesOf(f)
  }

  /** The position of the last event that touches flag `f`, or -1 when
      none does. */
  function LastTouch(f: Flag, evs: seq<KeyEvent>): (i: int)
    ensures -1 <= i < |evs|
    ensures 0 <= i ==> Touches(evs[i], f)
    ensures forall j :: i < j < |evs| ==> !Touches(evs[j], f)
  {
    if |evs| == 0 then -1
    else if Touches(evs[|evs| - 1], f) then |evs| - 1
    else LastTouch(f, evs[..|evs| - 1])
  }

  /** Level-triggered semantics: a flag is held exactly when the last event
      touching it was a press, or, when no event touched it, when it was
      held to begin with. */
  lemma {:induction false} LastTouchDecides(s: KeyState, evs: seq<KeyEvent>, f: Flag)
    ensures var i := LastTouch(f, evs);
      Replay(false, s, evs).Get(f) == if i < 0 then s.Get(f) else evs[i].Down?
  {
    if |evs| > 0 {
      var n := |evs| - 1;
      LastTouchDecides(s, evs[..n], f);
      if !Touches(evs[n], f) {
        var i := LastTouch(f, evs[..n]);
        assert 0 <= i ==> evs[i] == evs[..n][i];
      }
    }
  }
}

=== FILE: mobile_controls.dfy ===
/**
 Mobile input: two on-screen buttons, and steering from the device's tilt
 (the orientation event's `gamma`, in degrees). Tilt is read only on a mobile
 device whose orientation permission has been granted; otherwise steering is
 neutral, which is a safe default rather than an error.
 */
module MobileControls {

  import opened Options

  /** The on-screen controls the touch handlers are called with. */
  datatype Control = Accelerate | Brake | SteerLeft | SteerRight

  datatype TouchState = TouchState(accelerate: bool, brake: bool, left: bool, right: bool)
  {
    function Get(c: Control): bool {
      match c
      case Accelerate => accelerate
      case Brake => brake
      case SteerLeft => left
      case SteerRight => right
    }
  }

  const Untouched: TouchState := TouchState(false, false, false, false)

  function Press(s: TouchState, c: Control, v: bool): TouchState {
    match c
    case Accelerate => s.(accelerate := v)
    case Brake => s.(brake := v)
    case SteerLeft => s.(left := v)
    case SteerRight => s.(right := v)
  }

  /** A finger lands on control `c`: only `c` becomes pressed. */
  function TouchStart(s: TouchState, c: Control): (r: TouchState)
    ensures r.Get(c)
    ensures forall d :: d != c ==> r.Get(d) == s.Get(d)
  {
    Press(s, c, true)
  }

  /** A finger leaves control `c`: only `c` becomes released. */
  function TouchEnd(s: TouchState, c: Control): (r: TouchState)
    ensures !r.Get(c)
    ensures forall d :: d != c ==> r.Get(d) == s.Get(d)
  {
    Press(s, c, false)
  }

  /** Lifting a finger undoes landing it on a control that was free. */
  lemma TouchEndUndoesStart(s: TouchState, c: Control)
    requires !s.Get(c)
    ensures TouchEnd(TouchStart(s, c), c) == s
  {
  }

  /** Landing a finger undoes lifting it from a control that was held. */
  lemma TouchStartUndoesEnd(s: TouchState, c: Control)
    requires s.Get(c)
    ensures TouchStart(TouchEnd(s, c), c) == s
  {
  }

  /** Degrees of tilt that map to a unit steering value before sensitivity. */
  const FullTilt: real := 30.0
  const Sensitivity: real := 0.3
  /** Steering values of magnitude at most this are ignored. */
  const DeadZone: real := 0.1

  function Clamp(lo: real, hi: real, x: real): (r: real)
    requires lo <= hi
    ensures lo <= r <= hi
    ensures lo <= x <= hi ==> r == x
  {
    if x < lo then lo else if x > hi then hi else x
  }

  /** The normalised steering value in [-1, 1]. */
  function SteeringValue(gamma: real): (v: real)
    ensures -1.0 <= v <= 1.0
    ensures -100.0 <= gamma <= 100.0 ==> v == gamma / 100.0
    ensures v < -DeadZone <==> gamma < -10.0
    ensures v > DeadZone <==> gamma > 10.0
  {
    Clamp(-1.0, 1.0, gamma / FullTilt * Sensitivity)
  }

  datatype Steering = Steering(left: bool, right: bool)

  const Neutral: Steering := Steering(false, false)

  /** Tilt steering. The dead zone on the steering value is, in degrees of
      tilt, the band |gamma| <= 10; left and right exclude each other. */
  function SteeringInput(isMobile: bool, permitted: bool, gamma: real): (r: Steering)
    ensures r.left <==> isMobile && permitted && gamma < -10.0
    ensures r.right <==> isMobile && permitted && gamma > 10.0
    ensures !(r.left && r.right)
    ensures !(isMobile && permitted) ==> r == Neutral
  {
    if isMobile && permitted then
      var v := SteeringValue(gamma);
      Steering(v < -DeadZone, v > DeadZone)
    else
      Neutral
  }

  /** The last stored orientation sample, in the source's x/y/z slots. */
  datatype Orientation = Orientation(gamma: real, beta: real, alpha: real)

  const Level: Orientation := Orientation(0.0, 0.0, 0.0)

  /** An orientation event; any angle may be missing. */
  datatype OrientationEvent = OrientationEvent(gamma: Option<real>, beta: Option<real>, alpha: Option<real>)

  /** The orientation listener: a sample is stored only on a mobile device
      with permission, a missing angle being stored as 0. */
  function OnOrientation(stored: Orientation, isMobile: bool, permitted: bool, e: OrientationEvent): (r: Orientation)
    ensures !(isMobile && permitted) ==> r == stored
    ensures isMobile && permitted ==>
      && (e.gamma.Some? ==> r.gamma == e.gamma.value)
      && (e.gamma.None? ==> r.gamma == 0.0)
      && (e.beta.Some? ==> r.beta == e.beta.value)
      && (e.beta.None? ==> r.beta == 0.0)
      && (e.alpha.Some? ==> r.alpha == e.alpha.value)
      && (e.alpha.None? ==> r.alpha == 0.0)
  {
    if isMobile && permitted then
      Orientation(e.gamma.GetOr(0.0), e.beta.GetOr(0.0), e.alpha.GetOr(0.0))
    else
      stored
  }

  /** A sample with its tilt missing, or within 10 degrees of level, leaves
      steering neutral, whatever tilt was stored before it. */
  lemma MissingOrSmallTiltIsNeutral(stored: Orientation, isMobile: bool, permitted: bool, e: OrientationEvent)
    requires e.gamma.None? || -10.0 <= e.gamma.value <= 10.0
    ensures SteeringInput(isMobile, permitted, OnOrientation(stored, isMobile, permitted, e).gamma) == Neutral
  {
  }

  /** How the platform answers a permission request. */
  datatype PromptAnswer = Answered(answer: string) | Rejected

  /** Either the platform has a permission prompt, or it has none and the
      orientation event type may or may not exist. */
  datatype PermissionApi = Prompt(answer: PromptAnswer) | NoPrompt(orientationEvents: bool)

  /** The permission request: a prompt grants only on the answer "granted";
      without a prompt, the existence of orientation events grants. A grant
      is never withdrawn. */
  function RequestPermission(permitted: bool, api: PermissionApi): (r: bool)
    ensures permitted ==> r
    ensures !permitted ==> (r <==> api == Prompt(Answered("granted")) || api == NoPrompt(true))
  {
    match api
    case Prompt(Answered(a)) => permitted || a == "granted"
    case Prompt(Rejected) => permitted
    case NoPrompt(available) => permitted || available
  }

  /** The answers that grant orientation access. */
  predicate Grants(api: PermissionApi) {
    api == Prompt(Answered("granted")) || api == NoPrompt(true)
  }

  /** The permission after a sequence of requests, oldest first. */
  function RequestAll(permitted: bool, apis: seq<PermissionApi>): bool {
    if |apis| == 0 then permitted else RequestPermission(RequestAll(permitted, apis[..|apis| - 1]), apis[|apis| - 1])
  }

  /** After any sequence of requests, access is held exactly when it was
      held before or some request granted it: a grant survives every later
      answer, a refusal or a missing prompt included. */
  lemma {:induction false} GrantIsPermanent(permitted: bool, apis: seq<PermissionApi>)
    ensures RequestAll(permitted, apis) <==> permitted || exists i :: 0 <= i < |apis| && Grants(apis[i])
  {
    if |apis| > 0 {
      var init := apis[..|apis| - 1];
      GrantIsPermanent(permitted, init);
      if exists i :: 0 <= i < |init| && Grants(init[i]) {
        var i :| 0 <= i < |init| && Grants(init[i]);
        assert apis[i] == init[i];
      }
      if exists i :: 0 <= i < |apis| && Grants(apis[i]) {
        var i :| 0 <= i < |apis| && Grants(apis[i]);
        if i < |init| {
          assert init[i] == apis[i];
        }
      }
    }
  }
}

=== FILE: options.dfy ===
/** An optional value, for the source's `undefined` fields and absent callbacks. */
module Options {

  datatype Option<+T> = None | Some(value: T) {

    /** The value, or `default` when there is none: JavaScript's `v || default`
        for values that cannot be falsy otherwise. */
    function GetOr(default: T): (r: T)
      ensures Some? ==> r == value
      ensures None? ==> r == default
    {
      match this
      case Some(v) => v
      case None => default
    }
  }
}

=== FILE: physics.dfy ===
/**
 The vehicle step. The source changes only the z component of the velocity
 (the throttle writes `velocity.z`; the clamp, the drag and the reset scale or
 zero the whole vector), so the velocity is the scalar `vz` along world z and
 its length is |vz|. The heading is a separate accumulator: the step computes
 a forward vector from it but never uses it, so turning does not steer.
 */
module Physics {

  import opened Geometry
  import opened Intent

  const MaxSpeed: real := 200.0
  const Acceleration: real := 100.0
  /** Braking and reversing use half the acceleration. */
  const BrakeFactor: real := 0.5
  const TurnSpeed: real := 2.0
  /** Per-step velocity factor, independent of the step length. */
  const Drag: real := 0.95
  const KmhPerUnit: real := 3.6
  /** Drifting is reported above this speed. */
  const DriftSpeed: real := 20.0

  datatype Vehicle = Vehicle(position: Vec3, vz: real, heading: real)

  const AtRest: Vehicle := Vehicle(Origin, 0.0, 0.0)

  function Abs(x: real): (r: real)
    ensures r >= 0.0 && (r == x || r == -x)
  {
    if x < 0.0 then -x else x
  }

  /** `Math.round`: the nearest integer, halves rounding up. */
  function Round(x: real): (n: int)
    ensures n as real - 0.5 <= x < n as real + 0.5
  {
    (x + 0.5).Floor
  }

  /** The velocity after the throttle, before the clamp. */
  function Throttle(vz: real, i: ControlIntent, dt: real): real {
    var accelerated := if i.forward then vz - Acceleration * dt else vz;
    if i.backward then accelerated + Acceleration * dt * BrakeFactor else accelerated
  }

  /** A non-zero value divided by its magnitude is its sign. */
  lemma UnitDirection(u: real)
    requires u != 0.0
    ensures u / Abs(u) == if u > 0.0 then 1.0 else -1.0
  {
    if u > 0.0 {
      assert Abs(u) == u;
    } else {
      assert Abs(u) == -u;
      assert u / -u == -1.0 by {
        assert -1.0 * -u == u;
      }
    }
  }

  /** Rescale to length MaxSpeed when longer: `normalize()` then
      `multiplyScalar(MaxSpeed)` on a vector along z. */
  function ClampSpeed(u: real): (c: real)
    ensures Abs(c) <= MaxSpeed
    ensures Abs(u) <= MaxSpeed ==> c == u
    ensures Abs(u) > MaxSpeed ==> Abs(c) == MaxSpeed && (c > 0.0 <==> u > 0.0)
  {
    if Abs(u) > MaxSpeed then
      var unit := u / Abs(u);
      UnitDirection(u);
      unit * MaxSpeed
    else
      u
  }

  /** The heading after turning; holding both directions cancels out. */
  function Turn(heading: real, i: ControlIntent, dt: real): real {
    var turned := if i.left then heading + TurnSpeed * dt else heading;
    if i.right then turned - TurnSpeed * dt else turned
  }

  /** The vehicle after one step, with the HUD speed and the drift flag, which
      are both read from the speed before the clamp and the drag. */
  datatype StepResult = StepResult(vehicle: Vehicle, hudSpeed: int, drifting: bool)

  function Step(v: Vehicle, i: ControlIntent, dt: real): (r: StepResult)
    ensures var pre := Throttle(v.vz, i, dt);
      && r.vehicle.position.x == v.position.x
      && r.vehicle.position.y == v.position.y
      && r.vehicle.position.z == v.position.z + ClampSpeed(pre) * dt
      && r.vehicle.vz == Drag * ClampSpeed(pre)
      && r.hudSpeed == Round(KmhPerUnit * Abs(pre))
      && (r.drifting <==> i.drift && Abs(pre) > DriftSpeed)
    ensures Abs(r.vehicle.vz) <= Drag * MaxSpeed
    ensures r.hudSpeed >= 0
  {
    var pre := Throttle(v.vz, i, dt);
    var c := ClampSpeed(pre);
    var p := v.position;
    StepResult(
      Vehicle(Vec3(p.x, p.y, p.z + c * dt), Drag * c, Turn(v.heading, i, dt)),
      Round(KmhPerUnit * Abs(pre)),
      i.drift && Abs(pre) > DriftSpeed)
  }

  /** The throttle changes the velocity by -A*dt forward, +A*dt/2 backward,
      and -A*dt/2 with both held. */
  lemma ThrottleRule(vz: real, i: ControlIntent, dt: real)
    ensures i.forward && !i.backward ==> Throttle(vz, i, dt) == vz - 100.0 * dt
    ensures !i.forward && i.backward ==> Throttle(vz, i, dt) == vz + 50.0 * dt
    ensures i.forward && i.backward ==> Throttle(vz, i, dt) == vz - 50.0 * dt
    ensures !i.forward && !i.backward ==> Throttle(vz, i, dt) == vz
  {
  }

  /** Left turns by +2*dt, right by -2*dt, and both cancel. */
  lemma TurnRule(v: Vehicle, i: ControlIntent, dt: real)
    ensures var h := Step(v, i, dt).vehicle.heading;
      && (i.left && !i.right ==> h == v.heading + 2.0 * dt)
      && (!i.left && i.right ==> h == v.heading - 2.0 * dt)
      && (i.left == i.right ==> h == v.heading)
  {
  }

  /** The heading never influences motion: two vehicles that differ only in
      heading move identically and report the same HUD values. */
  lemma HeadingDoesNotSteer(v: Vehicle, heading: real, i: ControlIntent, dt: real)
    ensures var a, b := Step(v, i, dt), Step(v.(heading := heading), i, dt);
      && a.vehicle.position == b.vehicle.position
      && a.vehicle.vz == b.vehicle.vz
      && a.hudSpeed == b.hudSpeed
      && a.drifting == b.drifting
  {
    var w := v.(heading := heading);
    assert Throttle(w.vz, i, dt) == Throttle(v.vz, i, dt);
    var a, b := Step(v, i, dt), Step(w, i, dt);
    assert a.vehicle.position.z == b.vehicle.position.z;
  }

  /** With no input the speed strictly decreases by at least the drag factor
      every step until the vehicle is at rest. */
  lemma DragSlowsIdleVehicle(v: Vehicle, dt: real)
    requires v.vz != 0.0
    ensures Abs(Step(v, Idle, dt).vehicle.vz) <= Drag * Abs(v.vz) < Abs(v.vz)
  {
    var c := ClampSpeed(v.vz);
    assert Abs(c) <= Abs(v.vz);
    assert Abs(Drag * c) == Drag * Abs(c);
  }

  /** The speeds that can occur between steps: at most Drag * MaxSpeed. With
      steps of at most 0.1s the throttle then stays within MaxSpeed, so the
      clamp never changes the velocity, and the HUD shows at most 720 km/h. */
  lemma ClampIdleInPlay(v: Vehicle, i: ControlIntent, dt: real)
    requires Abs(v.vz) <= Drag * MaxSpeed
    requires 0.0 <= dt <= 0.1
    ensures Abs(Throttle(v.vz, i, dt)) <= MaxSpeed
    ensures ClampSpeed(Throttle(v.vz, i, dt)) == Throttle(v.vz, i, dt)
    ensures 0 <= Step(v, i, dt).hudSpeed <= 720
    ensures Abs(Step(v, i, dt).vehicle.vz) <= Drag * MaxSpeed
  {
    var pre := Throttle(v.vz, i, dt);
    assert Abs(pre) <= 200.0;
    assert KmhPerUnit * Abs(pre) <= 720.0;
  }

  /** The reset used by the KeyR handler and the reset button: position,
      velocity and heading return to zero, when a vehicle exists. */
  function Reset(v: Vehicle, vehiclePresent: bool): (r: Vehicle)
    ensures vehiclePresent ==> r.position == Origin && r.vz == 0.0 && r.heading == 0.0
    ensures !vehiclePresent ==> r == v
  {
    if vehiclePresent then AtRest else v
  }
}

=== FILE: race.dfy ===
/**
 Race progression: the five-second countdown, the elapsed-time accumulator,
 the checkpoint cursor and the lap bookkeeping. There is no "completed"
 state: every wrap of the cursor to 0 counts a lap, and every wrap from a lap
 at or beyond the configured count reports completion again.
 */
module Race {

  import opened Geometry
  import opened Options
  import Records

  const CountdownStart: int := 5
  const CheckpointRadius: real := 30.0

  /** The game state shown by the HUD. `boost` and `position` are never
      changed from their initial values. */
  datatype RaceState = RaceState(
    speed: int, boost: int, position: int, lap: int, time: real,
    isStarted: bool, countdown: int, isDrifting: bool, lapTimes: seq<real>)

  const Initial: RaceState := RaceState(0, 100, 1, 1, 0.0, false, CountdownStart, false, [])

  /** The one-second countdown timer is armed only in this state. */
  predicate CountdownArmed(s: RaceState) {
    s.countdown > 0 && !s.isStarted
  }

  /** One firing of the countdown timer: the countdown drops by one, and the
      tick from 1 also starts the race. Nothing else changes. */
  function CountdownTick(s: RaceState): (r: RaceState)
    ensures !CountdownArmed(s) ==> r == s
    ensures CountdownArmed(s) ==> r.countdown == s.countdown - 1 && (r.isStarted <==> s.countdown == 1)
    ensures r.(countdown := s.countdown, isStarted := s.isStarted) == s
  {
    if !CountdownArmed(s) then s
    else if s.countdown == 1 then s.(countdown := 0, isStarted := true)
    else s.(countdown := s.countdown - 1)
  }

  function Ticks(s: RaceState, n: nat): RaceState {
    if n == 0 then s else CountdownTick(Ticks(s, n - 1))
  }

  /** From the initial state, tick k shows 5 - k; the race starts at exactly
      the fifth tick, and later ticks do nothing. */
  lemma {:induction false} CountdownStartsAfterFiveTicks(n: nat)
    ensures n <= 5 ==> Ticks(Initial, n) == Initial.(countdown := 5 - n, isStarted := n == 5)
    ensures n >= 5 ==> Ticks(Initial, n) == Initial.(countdown := 0, isStarted := true)
  {
    if n > 0 {
      CountdownStartsAfterFiveTicks(n - 1);
    }
  }

  /** The elapsed-time accumulator runs only once the race has started. */
  function UpdateTimer(s: RaceState, dt: real): (r: RaceState)
    ensures s.isStarted ==> r.time == s.time + dt
    ensures r.(time := s.time) == s
    ensures !s.isStarted ==> r == s
  {
    if s.isStarted then s.(time := s.time + dt) else s
  }

  /** The race-complete payload handed to the host. */
  datatype Completion = Completion(totalTime: real, lapTimes: seq<real>, track: string, bike: string)

  /** Within the checkpoint radius, compared on squared distances. */
  predicate Near(position: Vec3, checkpoint: Vec3) {
    SqDist(position, checkpoint) < CheckpointRadius * CheckpointRadius
  }

  /** `Near` is the source's `distance < 30` for the Euclidean distance. */
  lemma NearIsWithinRadius(position: Vec3, checkpoint: Vec3, distance: real)
    requires distance >= 0.0 && distance * distance == SqDist(position, checkpoint)
    ensures Near(position, checkpoint) <==> distance < CheckpointRadius
  {
    ShorterIffSquareSmaller(distance, SqDist(position, checkpoint), CheckpointRadius);
  }

  /** The cursor is valid for the checkpoint list: inside it, or 0 for an
      empty list. */
  predicate CursorValid(cursor: nat, checkpoints: seq<Vec3>) {
    if |checkpoints| == 0 then cursor == 0 else cursor < |checkpoints|
  }

  /** This call's checkpoint is reached and advancing wraps the cursor to 0. */
  predicate Wraps(cursor: nat, checkpoints: seq<Vec3>, position: Vec3)
    requires CursorValid(cursor, checkpoints)
  {
    |checkpoints| > 0 && Near(position, checkpoints[cursor]) && (cursor + 1) % |checkpoints| == 0
  }

  datatype CheckpointResult = CheckpointResult(cursor: nat, race: RaceState, completion: Option<Completion>)

  /** The checkpoint check run after each physics step. */
  function CheckCheckpoints(cursor: nat, checkpoints: seq<Vec3>, position: Vec3, s: RaceState,
                            laps: int, track: string, bike: string): (r: CheckpointResult)
    requires CursorValid(cursor, checkpoints)
    ensures CursorValid(r.cursor, checkpoints)
    ensures |checkpoints| == 0 ==> r == CheckpointResult(cursor, s, None)
    ensures |checkpoints| > 0 && !Near(position, checkpoints[cursor]) ==> r == CheckpointResult(cursor, s, None)
    ensures |checkpoints| > 0 && Near(position, checkpoints[cursor]) ==> r.cursor == (cursor + 1) % |checkpoints|
    ensures !Wraps(cursor, checkpoints, position) ==> r.race == s && r.completion == None
    ensures Wraps(cursor, checkpoints, position) ==>
      r.race == s.(lap := s.lap + 1, lapTimes := s.lapTimes + [s.time])
    ensures r.completion.Some? <==> Wraps(cursor, checkpoints, position) && s.lap >= laps
    ensures r.completion.Some? ==> r.completion.value == Completion(s.time, s.lapTimes + [s.time], track, bike)
  {
    if |checkpoints| == 0 then CheckpointResult(cursor, s, None)
    else if !Near(position, checkpoints[cursor]) then CheckpointResult(cursor, s, None)
    else
      var next := (cursor + 1) % |checkpoints|;
      if next != 0 then CheckpointResult(next, s, None)
      else
        var completion := if s.lap >= laps then Some(Completion(s.time, s.lapTimes + [s.time], track, bike)) else None;
        CheckpointResult(next, s.(lap := s.lap + 1, lapTimes := s.lapTimes + [s.time]), completion)
  }

  /** The lap bookkeeping: one lap-time entry per completed lap, entries are
      cumulative race times, so they never decrease and never exceed the
      current time. */
  predicate LapBook(s: RaceState) {
    && s.lap == 1 + |s.lapTimes|
    && s.time >= 0.0
    && Records.NonDecreasing(s.lapTimes)
    && (forall i :: 0 <= i < |s.lapTimes| ==> s.lapTimes[i] <= s.time)
  }

  lemma InitialLapBook()
    ensures LapBook(Initial)
  {
  }

  /** The timer keeps the lap bookkeeping for non-negative steps. */
  lemma {:induction false} TimerKeepsLapBook(s: RaceState, dt: real)
    requires LapBook(s) && dt >= 0.0
    ensures LapBook(UpdateTimer(s, dt))
  {
    var r := UpdateTimer(s, dt);
    forall i | 0 <= i < |r.lapTimes|
      ensures r.lapTimes[i] <= r.time
    {
      assert s.lapTimes[i] <= s.time;
    }
  }

  /** The checkpoint check keeps the lap bookkeeping. */
  lemma CheckpointKeepsLapBook(cursor: nat, checkpoints: seq<Vec3>, position: Vec3, s: RaceState,
                               laps: int, track: string, bike: string)
    requires CursorValid(cursor, checkpoints) && LapBook(s)
    ensures LapBook(CheckCheckpoints(cursor, checkpoints, position, s, laps, track, bike).race)
  {
    var r := CheckCheckpoints(cursor, checkpoints, position, s, laps, track, bike).race;
    if Wraps(cursor, checkpoints, position) {
      var xs := r.lapTimes;
      assert xs == s.lapTimes + [s.time];
      forall i, j | 0 <= i < j < |xs|
        ensures xs[i] <= xs[j]
      {
        if j < |s.lapTimes| {
          assert xs[i] == s.lapTimes[i] && xs[j] == s.lapTimes[j];
        } else {
          assert xs[i] == s.lapTimes[i] && xs[j] == s.time;
        }
      }
    }
  }

  function Max(a: int, b: int): int {
    if a < b then b else a
  }

  /** Completion reports due after reaching `lap`: one for every wrap from a
      lap L >= laps, with L running over 1 .. lap - 1. */
  function CompletionsDue(lap: int, laps: int): (n: nat)
    ensures lap <= Max(laps, 1) ==> n == 0
    ensures lap > Max(laps, 1) ==> n == lap - Max(laps, 1)
  {
    if lap <= Max(laps, 1) then 0 else lap - Max(laps, 1)
  }

  /** A wrap adds one to the count of completions due exactly when it
      reports a completion. */
  lemma WrapAdvancesDue(cursor: nat, checkpoints: seq<Vec3>, position: Vec3, s: RaceState,
                        laps: int, track: string, bike: string)
    requires CursorValid(cursor, checkpoints) && s.lap >= 1
    ensures var r := CheckCheckpoints(cursor, checkpoints, position, s, laps, track, bike);
      CompletionsDue(r.race.lap, laps) == CompletionsDue(s.lap, laps) + (if r.completion.Some? then 1 else 0)
  {
  }

  /** The first completion report carries one lap time per configured lap;
      any later wrap reports again, with one more entry each time. */
  lemma {:induction false} CompletionCarriesEveryLap(cursor: nat, checkpoints: seq<Vec3>, position: Vec3, s: RaceState,
                                                     laps: int, track: string, bike: string)
    requires CursorValid(cursor, checkpoints) && LapBook(s)
    ensures var r := CheckCheckpoints(cursor, checkpoints, position, s, laps, track, bike);
      r.completion.Some? ==>
        && |r.completion.value.lapTimes| == Max(laps, 1) + CompletionsDue(s.lap, laps)
        && r.completion.value.lapTimes == r.race.lapTimes
        && r.race.lap > laps
  {
  }
}

=== FILE: reach.dfy ===
/**
 Which checkpoints the vehicle can reach. The step moves the vehicle along
 world z only (the heading is accumulated but never applied), and the vehicle
 starts and resets at the origin, so it never leaves the line x = 0. Every
 checkpoint list has a checkpoint at least a checkpoint radius off that line,
 so the cursor never passes it and no lap is ever completed. `SteeredStep` is
 the step that moves along the heading instead.
 */
module Reach {

  import opened Geometry
  import opened Options
  import opened Intent
  import opened Physics
  import opened Race
  import opened Track
  import opened Engine

  /** A checkpoint no position on the line x = 0 is near. */
  predicate OffAxis(c: Vec3) {
    c.x * c.x >= CheckpointRadius * CheckpointRadius
  }

  lemma OffAxisIsFar(p: Vec3, c: Vec3)
    requires p.x == 0.0 && OffAxis(c)
    ensures !Near(p, c)
  {
    assert Square(p.x - c.x) == c.x * c.x;
  }

  /** The vehicle is on the line x = 0 and the cursor has not passed the
      off-axis checkpoint `j`. */
  predicate Stranded(s: Session, j: nat) {
    && j < |s.checkpoints| && OffAxis(s.checkpoints[j])
    && s.vehicle.position.x == 0.0 && s.cursor <= j
  }

  /** From the line x = 0 the checkpoint check never moves the cursor past
      an off-axis checkpoint, so it never wraps and reports nothing. */
  lemma CheckStaysBehind(cursor: nat, checkpoints: seq<Vec3>, position: Vec3, race: RaceState,
                         laps: int, track: string, bike: string, j: nat)
    requires CursorValid(cursor, checkpoints) && j < |checkpoints| && OffAxis(checkpoints[j])
    requires position.x == 0.0 && cursor <= j
    ensures var cc := CheckCheckpoints(cursor, checkpoints, position, race, laps, track, bike);
      cc.cursor <= j && cc.completion.None?
  {
    OffAxisIsFar(position, checkpoints[j]);
    if Near(position, checkpoints[cursor]) {
      assert cursor < j;
      assert (cursor + 1) % |checkpoints| == cursor + 1;
    }
  }

  /** A frame leaves a stranded vehicle stranded and reports nothing. */
  lemma FrameKeepsStranded(cfg: Config, s: Session, delta: real, j: nat)
    requires CursorValid(s.cursor, s.checkpoints) && Stranded(s, j)
    ensures Stranded(Frame(cfg, s, delta), j)
    ensures Frame(cfg, s, delta).completions == s.completions
  {
    if s.race.isStarted {
      var dt := FrameDelta(delta);
      var step := Step(s.vehicle, IntentOf(cfg, s), dt);
      var shown := UpdateTimer(s.race, dt).(speed := step.hudSpeed, isDrifting := step.drifting);
      CheckStaysBehind(s.cursor, s.checkpoints, step.vehicle.position, shown, cfg.laps, cfg.track, cfg.bike, j);
      var r := Frame(cfg, s, delta);
      assert |r.completions| == |s.completions|;
      assert r.completions == r.completions[..|s.completions|];
    }
  }

  /** Every event leaves a stranded vehicle stranded and reports nothing. */
  lemma {:induction false} HandleKeepsStranded(cfg: Config, s: Session, e: Event, j: nat)
    requires CursorValid(s.cursor, s.checkpoints) && Stranded(s, j)
    ensures Stranded(Handle(cfg, s, e), j)
    ensures Handle(cfg, s, e).completions == s.completions
  {
    if e.AnimationFrame? {
      FrameKeepsStranded(cfg, s, e.delta, j);
    }
  }

  /** No sequence of events frees a stranded vehicle or reports a race. */
  lemma {:induction false} RunKeepsStranded(cfg: Config, s: Session, evs: seq<Event>, j: nat)
    requires CursorValid(s.cursor, s.checkpoints) && Stranded(s, j)
    ensures Stranded(Run(cfg, s, evs), j)
    ensures Run(cfg, s, evs).completions == s.completions
  {
    if |evs| > 0 {
      RunKeepsStranded(cfg, s, evs[..|evs| - 1], j);
      HandleKeepsStranded(cfg, Run(cfg, s, evs[..|evs| - 1]), evs[|evs| - 1], j);
    }
  }

  /** The first sample of a built-in layout lies off the line x = 0: at angle
      0 the curves put it at x = 300, 350 and 200. */
  predicate FirstSampleOffAxis(l: Layout, curve: (Layout, real) -> Vec3) {
    Parametric(l) ==> OffAxis(curve(l, 0.0))
  }

  /** Every checkpoint list has an off-axis checkpoint: the fallback list's
      and the square's second, and a built-in layout's first. */
  lemma TrackHasOffAxisCheckpoint(id: string, curve: (Layout, real) -> Vec3, buildFails: bool) returns (j: nat)
    requires FirstSampleOffAxis(LayoutOf(id), curve)
    ensures j < |CreateTrack(id, curve, buildFails)| && OffAxis(CreateTrack(id, curve, buildFails)[j])
  {
    var l := LayoutOf(id);
    if buildFails {
      j := 1;
    } else if l == SquareDefault {
      j := 1;
      assert GenerateCheckpoints(l, curve)[1].x == SquareCorners[1].x;
    } else {
      j := 0;
      assert SampleTurns(l, 0 * Stride(l)) == 0.0;
      assert GenerateCheckpoints(l, curve)[0] == CheckpointAt(l, curve(l, SampleTurns(l, 0 * Stride(l))));
    }
  }

  /** As written, no race ever completes: on the fallback list and on the
      square the vehicle never reaches checkpoint 1, and on a built-in track
      it never reaches checkpoint 0, whatever the events. */
  lemma NoRaceEverCompletes(cfg: Config, curve: (Layout, real) -> Vec3, buildFails: bool, evs: seq<Event>)
    requires FirstSampleOffAxis(LayoutOf(cfg.track), curve)
    ensures Start(cfg, true, true, None, curve, buildFails).Running?
    ensures Run(cfg, Start(cfg, true, true, None, curve, buildFails).session, evs).completions == []
  {
    var s := Start(cfg, true, true, None, curve, buildFails).session;
    var j := TrackHasOffAxisCheckpoint(cfg.track, curve, buildFails);
    assert s.checkpoints == CreateTrack(cfg.track, curve, buildFails);
    assert Stranded(s, j);
    RunKeepsStranded(cfg, s, evs, j);
  }

  /** The step with the velocity applied along the heading: `dir` gives the
      sine and cosine of a heading, so at heading 0 the motion is along world
      z as before. The speed, drag, HUD values and turning are those of
      `Step`; only where the vehicle ends up differs. */
  function SteeredStep(v: Vehicle, i: ControlIntent, dt: real, dir: real -> (real, real)): (r: StepResult)
    ensures var w := Step(v, i, dt);
      && r.vehicle.vz == w.vehicle.vz && r.vehicle.heading == w.vehicle.heading
      && r.hudSpeed == w.hudSpeed && r.drifting == w.drifting
      && r.vehicle.position.y == v.position.y
    ensures r.vehicle.position == MoveAlong(v.position, dir(r.vehicle.heading), ClampSpeed(Throttle(v.vz, i, dt)) * dt)
    ensures r.vehicle.vz == Drag * ClampSpeed(Throttle(v.vz, i, dt))
  {
    var w := Step(v, i, dt);
    w.(vehicle := w.vehicle.(position := MoveAlong(v.position, dir(w.vehicle.heading),
                                                   ClampSpeed(Throttle(v.vz, i, dt)) * dt)))
  }

  /** `p` moved by `m` along the direction whose sine and cosine are `d`. */
  function MoveAlong(p: Vec3, d: (real, real), m: real): Vec3 {
    Vec3(p.x + d.0 * m, p.y, p.z + d.1 * m)
  }

  /** Facing straight ahead, the steered step is the step as written. */
  lemma SteeredStepAhead(v: Vehicle, i: ControlIntent, dt: real, dir: real -> (real, real))
    requires dir(Step(v, i, dt).vehicle.heading) == (0.0, 1.0)
    ensures SteeredStep(v, i, dt, dir) == Step(v, i, dt)
  {
    var w := Step(v, i, dt);
    var m := ClampSpeed(Throttle(v.vz, i, dt)) * dt;
    assert MoveAlong(v.position, (0.0, 1.0), m) == w.vehicle.position;
    assert SteeredStep(v, i, dt, dir).vehicle == w.vehicle;
  }

  /** Whatever the heading, the steered step covers the distance the step as
      written covers. */
  lemma SteeredStepCoversSameDistance(v: Vehicle, i: ControlIntent, dt: real, dir: real -> (real, real))
    requires var d := dir(Step(v, i, dt).vehicle.heading); d.0 * d.0 + d.1 * d.1 == 1.0
    ensures SqDist(SteeredStep(v, i, dt, dir).vehicle.position, v.position)
         == SqDist(Step(v, i, dt).vehicle.position, v.position)
  {
    var w := Step(v, i, dt);
    var m := ClampSpeed(Throttle(v.vz, i, dt)) * dt;
    var p := v.position;
    assert SteeredStep(v, i, dt, dir).vehicle.position == MoveAlong(p, dir(w.vehicle.heading), m);
    assert w.vehicle.position == MoveAlong(p, (0.0, 1.0), m);
    MoveAlongDistance(p, dir(w.vehicle.heading), m);
    MoveAlongDistance(p, (0.0, 1.0), m);
  }

  /** Moving by `m` along a unit direction covers squared distance m * m. */
  lemma MoveAlongDistance(p: Vec3, d: (real, real), m: real)
    requires d.0 * d.0 + d.1 * d.1 == 1.0
    ensures SqDist(MoveAlong(p, d, m), p) == m * m
  {
    var q := MoveAlong(p, d, m);
    assert q.x - p.x == d.0 * m && q.y - p.y == 0.0 && q.z - p.z == d.1 * m;
    assert SqDist(q, p) == Square(d.0 * m) + Square(d.1 * m);
    assert Square(d.0 * m) + Square(d.1 * m) == (d.0 * d.0 + d.1 * d.1) * (m * m);
  }

  /** Turning steers: the steered step leaves the line the vehicle is on
      exactly when the heading has a sideways component, the vehicle is
      moving and time passes. So a turned vehicle can reach an off-axis
      checkpoint. */
  lemma SteeringLeavesTheAxis(v: Vehicle, i: ControlIntent, dt: real, dir: real -> (real, real))
    ensures var r := SteeredStep(v, i, dt, dir); var d := dir(r.vehicle.heading);
      r.vehicle.position.x != v.position.x <==> d.0 != 0.0 && r.vehicle.vz != 0.0 && dt != 0.0
  {
    var r := SteeredStep(v, i, dt, dir);
    var c := ClampSpeed(Throttle(v.vz, i, dt));
    var d := dir(r.vehicle.heading);
    MoveAlongSideways(v.position, d, c * dt);
    NonZeroProduct(c, dt);
  }

  /** Moving along a direction changes x exactly when the direction has a
      sideways component and the distance is not zero. */
  lemma MoveAlongSideways(p: Vec3, d: (real, real), m: real)
    ensures MoveAlong(p, d, m).x != p.x <==> d.0 != 0.0 && m != 0.0
  {
    if d.0 != 0.0 && m != 0.0 {
      assert d.0 * m != 0.0;
    }
  }

  lemma NonZeroProduct(c: real, dt: real)
    ensures c * dt != 0.0 <==> Drag * c != 0.0 && dt != 0.0
  {
  }
}

=== FILE: records.dfy ===
/**
 The menu shell's store: settings, best lap times and ghost data keyed by
 `${track}-${bike}`, the reload of saved best times, the race-complete
 handler and the start of a race. Persistence itself (local storage, JSON)
 is outside the model; the reload receives the saved entries as a sequence.
 */
module Records {

  /** A setting value. */
  datatype Value = Number(n: real) | Text(s: string) | Switch(b: bool)

  type Settings = map<string, Value>

  const DefaultSettings: Settings := map[
    "laps" := Number(3.0), "track" := Text("neon-circuit"), "bike" := Text("vapor-v1"),
    "difficulty" := Text("medium"), "graphics" := Text("medium"), "bloom" := Switch(true),
    "motionBlur" := Switch(false), "ssao" := Switch(false),
    "musicVolume" := Number(0.7), "sfxVolume" := Number(0.8)]

  /** The shallow merge `{ ...settings, ...patch }`: supplied keys override,
      every other setting is kept. */
  function UpdateSettings(s: Settings, patch: Settings): (r: Settings)
    ensures r.Keys == s.Keys + patch.Keys
    ensures forall k :: k in patch ==> r[k] == patch[k]
    ensures forall k :: k in s && k !in patch ==> r[k] == s[k]
  {
    s + patch
  }

  /** Merging patches one after the other is merging their merge. */
  lemma UpdateSettingsComposes(s: Settings, p: Settings, q: Settings)
    ensures UpdateSettings(UpdateSettings(s, p), q) == UpdateSettings(s, UpdateSettings(p, q))
  {
  }

  /** An empty patch keeps every setting. */
  lemma EmptyPatchKeepsSettings(s: Settings)
    ensures UpdateSettings(s, map[]) == s
  {
  }

  const TrackIds: seq<string> := ["neon-circuit", "hyper-overpass", "maze-vector"]
  const BikeIds: seq<string> := ["vapor-v1", "photon-x", "nova-s"]

  const Dash: char := '-'

  /** The store key of a track and bike. */
  function LapKey(track: string, bike: string): string {
    track + [Dash] + bike
  }

  type BestTimes = map<string, real>

  /** `!currentBest`: a missing entry, and a stored 0, both count as no best. */
  predicate NoBest(best: BestTimes, key: string) {
    key !in best || best[key] == 0.0
  }

  /** Store `time` as the best for its key when there is no best yet or it is
      strictly lower; otherwise the state is unchanged. */
  function SaveLapTime(best: BestTimes, track: string, bike: string, time: real): (r: BestTimes)
    ensures var k := LapKey(track, bike);
      && (NoBest(best, k) || time < best[k] ==> r.Keys == best.Keys + {k} && r[k] == time)
      && (!NoBest(best, k) && time >= best[k] ==> r == best)
      && (forall other :: other in best && other != k ==> other in r && r[other] == best[other])
  {
    var k := LapKey(track, bike);
    if NoBest(best, k) || time < best[k] then best[k := time] else best
  }

  /** A non-zero best never gets worse, and a stored 0 is replaced even by a
      larger time. */
  lemma BestOnlyImproves(best: BestTimes, track: string, bike: string, time: real)
    ensures var k := LapKey(track, bike); var r := SaveLapTime(best, track, bike, time);
      && k in r
      && (!NoBest(best, k) ==> r[k] <= best[k] && (r[k] == best[k] || r[k] == time))
      && (k in best && best[k] == 0.0 ==> r[k] == time)
  {
  }

  /** The least element of a non-empty sequence: `Math.min(...xs)`. */
  function MinOf(xs: seq<real>): (m: real)
    requires |xs| > 0
    ensures m in xs
    ensures forall i :: 0 <= i < |xs| ==> m <= xs[i]
  {
    if |xs| == 1 then xs[0]
    else
      var m := MinOf(xs[..|xs| - 1]);
      if xs[|xs| - 1] < m then xs[|xs| - 1] else m
  }

  function SaveAll(best: BestTimes, track: string, bike: string, times: seq<real>): BestTimes {
    if |times| == 0 then best
    else SaveLapTime(SaveAll(best, track, bike, times[..|times| - 1]), track, bike, times[|times| - 1])
  }

  /** Saving positive times one after another, from no entry, keeps their
      minimum. */
  lemma {:induction false} BestIsMinimumOfSaves(best: BestTimes, track: string, bike: string, times: seq<real>)
    requires LapKey(track, bike) !in best
    requires |times| > 0 && forall i :: 0 <= i < |times| ==> times[i] > 0.0
    ensures var r := SaveAll(best, track, bike, times);
      LapKey(track, bike) in r && r[LapKey(track, bike)] == MinOf(times)
  {
    var n := |times| - 1;
    if n > 0 {
      var pre := times[..n];
      assert forall i :: 0 <= i < |pre| ==> pre[i] > 0.0;
      BestIsMinimumOfSaves(best, track, bike, pre);
      MinOfPositive(pre);
      SaveKeepsLower(SaveAll(best, track, bike, pre), track, bike, times[n]);
    }
  }

  lemma MinOfPositive(xs: seq<real>)
    requires |xs| > 0 && forall i :: 0 <= i < |xs| ==> xs[i] > 0.0
    ensures MinOf(xs) > 0.0
  {
    var k :| 0 <= k < |xs| && xs[k] == MinOf(xs);
  }

  /** Over a positive best, a save keeps the lower of the two times. */
  lemma SaveKeepsLower(best: BestTimes, track: string, bike: string, time: real)
    requires LapKey(track, bike) in best && best[LapKey(track, bike)] > 0.0
    ensures var r := SaveLapTime(best, track, bike, time); var prior := best[LapKey(track, bike)];
      LapKey(track, bike) in r && r[LapKey(track, bike)] == if time < prior then time else prior
  {
  }

  /** Overwrite the ghost data of a track and bike unconditionally. */
  function SaveGhostData<G>(ghostData: map<string, G>, track: string, bike: string, data: G): (r: map<string, G>)
    ensures r.Keys == ghostData.Keys + {LapKey(track, bike)}
    ensures r[LapKey(track, bike)] == data
    ensures forall k :: k in ghostData && k != LapKey(track, bike) ==> r[k] == ghostData[k]
  {
    ghostData[LapKey(track, bike) := data]
  }

  /** Saving ghost data twice for one track and bike keeps only the second. */
  lemma GhostLastWriteWins<G>(ghostData: map<string, G>, track: string, bike: string, first: G, second: G)
    ensures SaveGhostData(SaveGhostData(ghostData, track, bike, first), track, bike, second)
         == SaveGhostData(ghostData, track, bike, second)
  {
  }

  /** The race-complete handler: save the least entry of the reported lap
      times under the selected track and bike, when there is one. */
  function HandleGameComplete(best: BestTimes, track: string, bike: string, lapTimes: seq<real>): (r: BestTimes)
    ensures |lapTimes| == 0 ==> r == best
    ensures |lapTimes| > 0 ==> r == SaveLapTime(best, track, bike, MinOf(lapTimes))
    ensures forall k :: k in best && k != LapKey(track, bike) ==> k in r && r[k] == best[k]
    ensures |lapTimes| > 0 ==> LapKey(track, bike) in r
    ensures |lapTimes| > 0 && NoBest(best, LapKey(track, bike)) ==>
      r[LapKey(track, bike)] in lapTimes && forall i :: 0 <= i < |lapTimes| ==> r[LapKey(track, bike)] <= lapTimes[i]
  {
    if |lapTimes| > 0 then SaveLapTime(best, track, bike, MinOf(lapTimes)) else best
  }

  /** Each entry is at least the one before it. */
  predicate NonDecreasing(xs: seq<real>) {
    forall i, j :: 0 <= i < j < |xs| ==> xs[i] <= xs[j]
  }

  /** The reported lap times are cumulative race times and never decrease,
      so the "best lap" the handler saves is always the first entry: the
      time of the first lap. */
  lemma SavedBestIsFirstLap(best: BestTimes, track: string, bike: string, lapTimes: seq<real>)
    requires |lapTimes| > 0 && NonDecreasing(lapTimes)
    ensures MinOf(lapTimes) == lapTimes[0]
    ensures HandleGameComplete(best, track, bike, lapTimes) == SaveLapTime(best, track, bike, lapTimes[0])
  {
    var m := MinOf(lapTimes);
    var j :| 0 <= j < |lapTimes| && lapTimes[j] == m;
    assert lapTimes[0] <= lapTimes[j];
  }

  /** Three laps of 30s, 20s and 20s are reported as [30, 50, 70]; the saved
      best is 30, although the fastest lap took 20. */
  lemma FirstLapSavedNotFastest()
    ensures HandleGameComplete(map[], "neon-circuit", "vapor-v1", [30.0, 50.0, 70.0])[LapKey("neon-circuit", "vapor-v1")] == 30.0
    ensures MinOf(LapDurations([30.0, 50.0, 70.0])) == 20.0
  {
    SavedBestIsFirstLap(map[], "neon-circuit", "vapor-v1", [30.0, 50.0, 70.0]);
    assert LapDurations([30.0, 50.0, 70.0]) == [30.0, 20.0, 20.0];
  }

  /** The duration of each lap, from cumulative lap times. */
  function LapDurations(lapTimes: seq<real>): (d: seq<real>)
    ensures |d| == |lapTimes|
    ensures |d| > 0 ==> d[0] == lapTimes[0]
    ensures forall i :: 0 < i < |d| ==> d[i] == lapTimes[i] - lapTimes[i - 1]
  {
    seq(|lapTimes|, i requires 0 <= i < |lapTimes| => if i == 0 then lapTimes[0] else lapTimes[i] - lapTimes[i - 1])
  }

  function Sum(xs: seq<real>): real {
    if |xs| == 0 then 0.0 else Sum(xs[..|xs| - 1]) + xs[|xs| - 1]
  }

  /** The durations add up to the total: the last cumulative time. */
  lemma {:induction false} DurationsSumToTotal(lapTimes: seq<real>)
    requires |lapTimes| > 0
    ensures Sum(LapDurations(lapTimes)) == lapTimes[|lapTimes| - 1]
  {
    var n := |lapTimes| - 1;
    if n > 0 {
      DurationsSumToTotal(lapTimes[..n]);
      DurationsOfPrefix(lapTimes, n);
    }
  }

  /** The durations of the first n laps are the first n durations. */
  lemma DurationsOfPrefix(lapTimes: seq<real>, n: nat)
    requires n <= |lapTimes|
    ensures LapDurations(lapTimes)[..n] == LapDurations(lapTimes[..n])
  {
  }

  /** Every cumulative lap time is the sum of the durations up to that lap,
      so the durations are exactly the laps the cumulative times record. */
  lemma DurationsPrefixSums(lapTimes: seq<real>)
    ensures forall i :: 0 <= i < |lapTimes| ==> Sum(LapDurations(lapTimes)[..i + 1]) == lapTimes[i]
  {
    forall i | 0 <= i < |lapTimes|
      ensures Sum(LapDurations(lapTimes)[..i + 1]) == lapTimes[i]
    {
      DurationsSumToTotal(lapTimes[..i + 1]);
      DurationsOfPrefix(lapTimes, i + 1);
    }
  }

  /** The race-complete handler saving the fastest single lap. */
  function HandleGameCompleteByLap(best: BestTimes, track: string, bike: string, lapTimes: seq<real>): (r: BestTimes)
    ensures |lapTimes| == 0 ==> r == best
    ensures |lapTimes| > 0 ==> r == SaveLapTime(best, track, bike, MinOf(LapDurations(lapTimes)))
    ensures forall k :: k in best && k != LapKey(track, bike) ==> k in r && r[k] == best[k]
    ensures |lapTimes| > 0 ==> LapKey(track, bike) in r
    ensures |lapTimes| > 0 && NoBest(best, LapKey(track, bike)) ==>
      && r[LapKey(track, bike)] in LapDurations(lapTimes)
      && forall i :: 0 <= i < |lapTimes| ==> r[LapKey(track, bike)] <= LapDurations(lapTimes)[i]
  {
    if |lapTimes| > 0 then SaveLapTime(best, track, bike, MinOf(LapDurations(lapTimes))) else best
  }

  /** `key.split("-")`: the fields between dashes. */
  function Split(s: string): (parts: seq<string>)
    ensures |parts| >= 1
    ensures forall i :: 0 <= i < |parts| ==> Dash !in parts[i]
    ensures Join(parts) == s
  {
    if |s| == 0 then [""]
    else
      var rest := Split(s[1..]);
      if s[0] == Dash then [""] + rest
      else [[s[0]] + rest[0]] + rest[1..]
  }

  /** The fields joined back with dashes. */
  function Join(parts: seq<string>): string
    requires |parts| >= 1
  {
    if |parts| == 1 then parts[0] else parts[0] + [Dash] + Join(parts[1..])
  }

  /** A field of a destructuring assignment: `undefined` when missing, which
      a template literal renders as the text "undefined". */
  function Field(parts: seq<string>, i: nat): string {
    if i < |parts| then parts[i] else "undefined"
  }

  /** The key a saved entry is re-stored under: the first two fields of the
      saved key, rejoined. */
  function ReloadKey(key: string): string {
    var parts := Split(key);
    LapKey(Field(parts, 0), Field(parts, 1))
  }

  lemma {:induction false} SplitDashFree(s: string)
    requires Dash !in s
    ensures Split(s) == [s]
  {
    if |s| > 0 {
      SplitDashFree(s[1..]);
      assert [s[0]] + s[1..] == s;
    }
  }

  lemma {:induction false} SplitAtFirstDash(a: string, rest: string)
    requires Dash !in a
    ensures Split(a + [Dash] + rest) == [a] + Split(rest)
  {
    if |a| == 0 {
      assert a + [Dash] + rest == [Dash] + rest;
      assert ([Dash] + rest)[1..] == rest;
    } else {
      var s := a + [Dash] + rest;
      assert s[1..] == a[1..] + [Dash] + rest;
      SplitAtFirstDash(a[1..], rest);
      assert [a[0]] + a[1..] == a;
    }
  }

  /** Keys whose track and bike contain no dash are re-stored unchanged. */
  lemma ReloadKeepsDashFreeKeys(track: string, bike: string)
    requires Dash !in track && Dash !in bike
    ensures ReloadKey(LapKey(track, bike)) == LapKey(track, bike)
  {
    SplitAtFirstDash(track, bike);
    SplitDashFree(bike);
  }

  /** A key of two dashed ids `a-b` and `c-d` is re-stored under `a-b`: the
      track id alone, not a key any lookup uses. */
  lemma ReloadKeepsOnlyTrack(a: string, b: string, c: string, d: string)
    requires Dash !in a && Dash !in b && Dash !in c
    ensures ReloadKey(LapKey(a + [Dash] + b, c + [Dash] + d)) == a + [Dash] + b
  {
    var bike := c + [Dash] + d;
    var tail := b + [Dash] + bike;
    var key := LapKey(a + [Dash] + b, bike);
    assert key == a + [Dash] + tail;
    SplitAtFirstDash(a, tail);
    SplitAtFirstDash(b, bike);
    var parts := Split(key);
    assert parts == [a] + ([b] + Split(bike));
    assert parts[0] == a && parts[1] == b;
  }

  /** Every shipped track and bike id contains a dash, so no saved best time
      of a shipped combination survives a reload under its own key. */
  lemma ShippedKeysAreMangled(i: nat, j: nat)
    requires i < |TrackIds| && j < |BikeIds|
    ensures ReloadKey(LapKey(TrackIds[i], BikeIds[j])) == TrackIds[i]
    ensures ReloadKey(LapKey(TrackIds[i], BikeIds[j])) != LapKey(TrackIds[i], BikeIds[j])
  {
    var t, b := TrackIds[i], BikeIds[j];
    var ta, tb := if i == 0 then "neon" else if i == 1 then "hyper" else "maze",
                  if i == 0 then "circuit" else if i == 1 then "overpass" else "vector";
    var ba, bb := if j == 0 then "vapor" else if j == 1 then "photon" else "nova",
                  if j == 0 then "v1" else if j == 1 then "x" else "s";
    assert t == ta + [Dash] + tb;
    assert b == ba + [Dash] + bb;
    ReloadKeepsOnlyTrack(ta, tb, ba, bb);
  }

  /** Every saved time is positive. */
  predicate AllPositive(saved: seq<(string, real)>) {
    forall i :: 0 <= i < |saved| ==> saved[i].1 > 0.0
  }

  /** The value under `k` is the earlier best or a time saved among the
      first `n` entries, the i-th of which is stored under `ks[i]`. */
  predicate FromSaves(best: BestTimes, saved: seq<(string, real)>, ks: seq<string>, n: nat, r: BestTimes, k: string)
    requires n <= |saved| == |ks| && k in r
  {
    (k in best && r[k] == best[k]) || exists i :: 0 <= i < n && ks[i] == k && r[k] == saved[i].1
  }

  /** The keys after the first `n` entries, the i-th stored under `ks[i]`:
      the earlier ones and every key stored. */
  predicate KeysSoFar(best: BestTimes, ks: seq<string>, n: nat, r: BestTimes)
    requires n <= |ks|
  {
    r.Keys == best.Keys + (set i | 0 <= i < n :: ks[i])
  }

  /** Keys no entry so far was stored under keep their earlier values. */
  predicate UntouchedSoFar(best: BestTimes, ks: seq<string>, n: nat, r: BestTimes)
    requires n <= |ks|
  {
    forall k :: k in best && (forall i :: 0 <= i < n ==> ks[i] != k) ==> k in r && r[k] == best[k]
  }

  /** Every value is an earlier best or a time saved so far. */
  predicate OriginsSoFar(best: BestTimes, saved: seq<(string, real)>, ks: seq<string>, n: nat, r: BestTimes)
    requires n <= |saved| == |ks|
  {
    forall k :: k in r ==> FromSaves(best, saved, ks, n, r, k)
  }

  /** When every saved time is positive, each key stored so far holds a
      time no higher than any saved under it. */
  predicate BoundSoFar(saved: seq<(string, real)>, ks: seq<string>, n: nat, r: BestTimes)
    requires n <= |saved| == |ks|
  {
    AllPositive(saved) ==> forall j :: 0 <= j < n ==> ks[j] in r && r[ks[j]] != 0.0 && r[ks[j]] <= saved[j].1
  }

  /** What the reload has established after its first `n` entries. */
  predicate ReloadInv(best: BestTimes, saved: seq<(string, real)>, ks: seq<string>, n: nat, r: BestTimes) {
    && n <= |saved| == |ks|
    && KeysSoFar(best, ks, n, r)
    && UntouchedSoFar(best, ks, n, r)
    && OriginsSoFar(best, saved, ks, n, r)
    && BoundSoFar(saved, ks, n, r)
  }

  lemma KeysStep(best: BestTimes, ks: seq<string>, n: nat, r: BestTimes, t: string, b: string, time: real)
    requires n < |ks| && ks[n] == LapKey(t, b) && KeysSoFar(best, ks, n, r)
    ensures KeysSoFar(best, ks, n + 1, SaveLapTime(r, t, b, time))
  {
    assert (set i | 0 <= i < n + 1 :: ks[i]) == (set i | 0 <= i < n :: ks[i]) + {ks[n]};
  }

  lemma UntouchedStep(best: BestTimes, ks: seq<string>, n: nat, r: BestTimes, t: string, b: string, time: real)
    requires n < |ks| && ks[n] == LapKey(t, b) && UntouchedSoFar(best, ks, n, r)
    ensures UntouchedSoFar(best, ks, n + 1, SaveLapTime(r, t, b, time))
  {
  }

  lemma OriginsStep(best: BestTimes, saved: seq<(string, real)>, ks: seq<string>, n: nat, r: BestTimes, t: string, b: string)
    requires n < |saved| == |ks| && ks[n] == LapKey(t, b) && OriginsSoFar(best, saved, ks, n, r)
    ensures OriginsSoFar(best, saved, ks, n + 1, SaveLapTime(r, t, b, saved[n].1))
  {
    var r' := SaveLapTime(r, t, b, saved[n].1);
    forall k | k in r'
      ensures FromSaves(best, saved, ks, n + 1, r', k)
    {
      if k == ks[n] && r'[k] == saved[n].1 {
      } else {
        assert k in r && r'[k] == r[k];
        assert FromSaves(best, saved, ks, n, r, k);
      }
    }
  }

  lemma BoundStep(saved: seq<(string, real)>, ks: seq<string>, n: nat, r: BestTimes, t: string, b: string)
    requires n < |saved| == |ks| && ks[n] == LapKey(t, b) && BoundSoFar(saved, ks, n, r)
    ensures BoundSoFar(saved, ks, n + 1, SaveLapTime(r, t, b, saved[n].1))
  {
  }

  /** Storing the next entry under its key keeps ReloadInv. */
  lemma ReloadStep(best: BestTimes, saved: seq<(string, real)>, ks: seq<string>, n: nat, r: BestTimes,
                   t: string, b: string)
    requires n < |saved| && ReloadInv(best, saved, ks, n, r)
    requires ks[n] == LapKey(t, b)
    ensures ReloadInv(best, saved, ks, n + 1, SaveLapTime(r, t, b, saved[n].1))
  {
    KeysStep(best, ks, n, r, t, b, saved[n].1);
    UntouchedStep(best, ks, n, r, t, b, saved[n].1);
    OriginsStep(best, saved, ks, n, r, t, b);
    BoundStep(saved, ks, n, r, t, b);
  }

  /** The key a saved key is re-stored under. */
  function Rekey(known: bool, key: string): string {
    if known then ReloadKeyKnown(key) else ReloadKey(key)
  }

  /** The keys a reload stores the saved entries under. */
  function Rekeyed(known: bool, saved: seq<(string, real)>): (ks: seq<string>)
    ensures |ks| == |saved|
    ensures forall i :: 0 <= i < |saved| ==> ks[i] == Rekey(known, saved[i].0)
  {
    seq(|saved|, i requires 0 <= i < |saved| => Rekey(known, saved[i].0))
  }

  /** The track and bike a reload stores a saved key under: the first two
      dash-separated fields as written, or, with the shipped track ids
      recognised, the track id and the rest. */
  function KeyFields(known: bool, key: string): (tb: (string, string))
    ensures LapKey(tb.0, tb.1) == Rekey(known, key)
  {
    if known then SplitKnownTrack(key) else (Field(Split(key), 0), Field(Split(key), 1))
  }

  /** The loop both reloads share: each saved entry, in order, is passed to
      SaveLapTime under the fields KeyFields picks from its key. */
  method Reload(best: BestTimes, saved: seq<(string, real)>, known: bool) returns (r: BestTimes)
    ensures ReloadInv(best, saved, Rekeyed(known, saved), |saved|, r)
  {
    ghost var ks := Rekeyed(known, saved);
    r := best;
    var n := 0;
    while n < |saved|
      invariant ReloadInv(best, saved, ks, n, r)
    {
      var (track, bike) := KeyFields(known, saved[n].0);
      ReloadStep(best, saved, ks, n, r, track, bike);
      r := SaveLapTime(r, track, bike, saved[n].1);
      n := n + 1;
    }
  }

  /** The reload as written: each saved entry is passed to SaveLapTime
      under the first two fields of its key, in order. Each value ends up as an earlier
      best or a time saved under its reload key, and, when every saved time
      is positive, no higher than any of them. */
  method ReloadLapTimes(best: BestTimes, saved: seq<(string, real)>) returns (r: BestTimes)
    ensures r.Keys == best.Keys + set i | 0 <= i < |saved| :: ReloadKey(saved[i].0)
    ensures forall k :: k in best && (forall i :: 0 <= i < |saved| ==> ReloadKey(saved[i].0) != k) ==> r[k] == best[k]
    ensures forall k :: k in r ==> FromSaves(best, saved, Rekeyed(false, saved), |saved|, r, k)
    ensures AllPositive(saved) ==>
      forall j :: 0 <= j < |saved| ==> r[ReloadKey(saved[j].0)] != 0.0 && r[ReloadKey(saved[j].0)] <= saved[j].1
  {
    r := Reload(best, saved, false);
    ghost var ks := Rekeyed(false, saved);
    assert (set i | 0 <= i < |saved| :: ks[i]) == set i | 0 <= i < |saved| :: ReloadKey(saved[i].0);
  }

  /** A key in which either id contains a dash is never re-stored under
      itself: the rebuilt key has exactly one dash, the saved one at least
      two. */
  lemma DashedKeysAreMangled(track: string, bike: string)
    requires Dash in track || Dash in bike
    ensures ReloadKey(LapKey(track, bike)) != LapKey(track, bike)
  {
    var parts := Split(LapKey(track, bike));
    var f0, f1 := Field(parts, 0), Field(parts, 1);
    assert Dash !in "undefined";
    assert Dash !in f0 && Dash !in f1;
    assert multiset(ReloadKey(LapKey(track, bike)))[Dash] == 1 by {
      assert ReloadKey(LapKey(track, bike)) == f0 + [Dash] + f1;
      assert multiset(f0)[Dash] == 0 && multiset(f1)[Dash] == 0;
    }
    assert multiset(LapKey(track, bike))[Dash] >= 2 by {
      assert multiset(LapKey(track, bike)) == multiset(track) + multiset([Dash]) + multiset(bike);
      assert multiset(track)[Dash] >= 1 || multiset(bike)[Dash] >= 1;
    }
  }

  /** The split recovering shipped ids: the key's track is the shipped track
      id it starts with, and the bike is the rest after the dash. */
  function SplitKnownTrack(key: string): (r: (string, string))
  {
    if |key| > |TrackIds[0]| && key[..|TrackIds[0]| + 1] == TrackIds[0] + [Dash] then (TrackIds[0], key[|TrackIds[0]| + 1..])
    else if |key| > |TrackIds[1]| && key[..|TrackIds[1]| + 1] == TrackIds[1] + [Dash] then (TrackIds[1], key[|TrackIds[1]| + 1..])
    else if |key| > |TrackIds[2]| && key[..|TrackIds[2]| + 1] == TrackIds[2] + [Dash] then (TrackIds[2], key[|TrackIds[2]| + 1..])
    else
      var parts := Split(key);
      (Field(parts, 0), Field(parts, 1))
  }

  function ReloadKeyKnown(key: string): string {
    var (track, bike) := SplitKnownTrack(key);
    LapKey(track, bike)
  }

  /** With the shipped track ids recognised, every key of a shipped track is
      re-stored under itself, whatever the bike id. */
  lemma ReloadKnownRoundTrip(i: nat, bike: string)
    requires i < |TrackIds|
    ensures SplitKnownTrack(LapKey(TrackIds[i], bike)) == (TrackIds[i], bike)
    ensures ReloadKeyKnown(LapKey(TrackIds[i], bike)) == LapKey(TrackIds[i], bike)
  {
    var t := TrackIds[i];
    var key := LapKey(t, bike);
    assert key[..|t| + 1] == t + [Dash];
    assert key[|t| + 1..] == bike;
    if i > 0 {
      assert key[0] != TrackIds[0][0];
    }
    if i > 1 {
      assert key[0] != TrackIds[1][0];
    }
  }

  /** The key starts with the shipped track id `t` and a dash. */
  predicate HasTrackPrefix(key: string, t: string) {
    |key| > |t| && key[..|t| + 1] == t + [Dash]
  }

  /** The key belongs to one of the shipped tracks. */
  predicate KnownTrackKey(key: string) {
    HasTrackPrefix(key, TrackIds[0]) || HasTrackPrefix(key, TrackIds[1]) || HasTrackPrefix(key, TrackIds[2])
  }

  /** Every key of a shipped track is rebuilt as itself, whatever follows
      the track id. */
  lemma KnownTrackKeyRoundTrip(key: string)
    requires KnownTrackKey(key)
    ensures ReloadKeyKnown(key) == key
  {
    var (t, b) := SplitKnownTrack(key);
    assert HasTrackPrefix(key, t);
    assert key == key[..|t| + 1] + key[|t| + 1..];
  }

  /** The corrected reload loop: every saved key of a shipped track is
      stored under itself, every value is an earlier best or a saved time,
      and keys no entry rebuilds keep their values. */
  method ReloadLapTimesKnown(best: BestTimes, saved: seq<(string, real)>) returns (r: BestTimes)
    ensures r.Keys == best.Keys + set i | 0 <= i < |saved| :: ReloadKeyKnown(saved[i].0)
    ensures forall i :: 0 <= i < |saved| && KnownTrackKey(saved[i].0) ==> saved[i].0 in r
    ensures forall k :: k in best && (forall i :: 0 <= i < |saved| ==> ReloadKeyKnown(saved[i].0) != k) ==> r[k] == best[k]
    ensures forall k :: k in r ==> FromSaves(best, saved, Rekeyed(true, saved), |saved|, r, k)
    ensures AllPositive(saved) ==>
      forall j :: 0 <= j < |saved| ==> r[ReloadKeyKnown(saved[j].0)] != 0.0 && r[ReloadKeyKnown(saved[j].0)] <= saved[j].1
  {
    r := Reload(best, saved, true);
    ghost var ks := Rekeyed(true, saved);
    assert (set i | 0 <= i < |saved| :: ks[i]) == set i | 0 <= i < |saved| :: ReloadKeyKnown(saved[i].0);
    forall i | 0 <= i < |saved| && KnownTrackKey(saved[i].0)
      ensures saved[i].0 in r
    {
      KnownTrackKeyRoundTrip(saved[i].0);
    }
  }

  /** The shell around a race. */
  datatype Shell = Shell(screen: string, selectedTrack: string, selectedBike: string, gameMode: string, settings: Settings)

  /** Starting a race copies the selected track and bike into the settings,
      keeps every other setting and switches to the game screen. */
  function StartGame(shell: Shell, mode: string): (r: Shell)
    ensures r.screen == "game" && r.gameMode == mode
    ensures r.selectedTrack == shell.selectedTrack && r.selectedBike == shell.selectedBike
    ensures r.settings.Keys == shell.settings.Keys + {"track", "bike"}
    ensures r.settings["track"] == Text(shell.selectedTrack) && r.settings["bike"] == Text(shell.selectedBike)
    ensures forall k :: k in shell.settings && k != "track" && k != "bike" ==> r.settings[k] == shell.settings[k]
  {
    shell.(gameMode := mode,
           settings := UpdateSettings(shell.settings, map["track" := Text(shell.selectedTrack), "bike" := Text(shell.selectedBike)]),
           screen := "game")
  }
}

=== FILE: track.dfy ===
/**
 Checkpoint lists of the built-in tracks. Each parametric track samples its
 closed centreline at i = 0 .. LastSample and keeps every sample whose index
 is a multiple of the stride as a checkpoint. The centreline itself is
 trigonometric and is a parameter here: `curve(layout, t)` is the sample at
 the angle of `t` full turns. Unknown track ids get a square, and a failed
 build gets a fixed fallback list; every path yields checkpoints.
 */
module Track {

  import opened Geometry

  datatype Layout = NeonCircuit | HyperOverpass | MazeVector | SquareDefault

  function LayoutOf(id: string): (l: Layout)
    ensures l == NeonCircuit <==> id == "neon-circuit"
    ensures l == HyperOverpass <==> id == "hyper-overpass"
    ensures l == MazeVector <==> id == "maze-vector"
  {
    if id == "neon-circuit" then NeonCircuit
    else if id == "hyper-overpass" then HyperOverpass
    else if id == "maze-vector" then MazeVector
    else SquareDefault
  }

  predicate Parametric(l: Layout) {
    l != SquareDefault
  }

  /** The last sample index; samples run over 0 .. LastSample inclusive. */
  function LastSample(l: Layout): nat
    requires Parametric(l)
  {
    match l
    case NeonCircuit => 64
    case HyperOverpass => 64
    case MazeVector => 96
  }

  /** Every Stride-th sample is a checkpoint. */
  function Stride(l: Layout): nat
    requires Parametric(l)
  {
    match l
    case NeonCircuit => 16
    case HyperOverpass => 16
    case MazeVector => 24
  }

  /** Full turns of the angle over the whole sample range. */
  function Turns(l: Layout): nat
    requires Parametric(l)
  {
    match l
    case NeonCircuit => 1
    case HyperOverpass => 1
    case MazeVector => 2
  }

  /** The angle of sample i, in full turns. */
  function SampleTurns(l: Layout, i: nat): real
    requires Parametric(l)
  {
    i as real / LastSample(l) as real * Turns(l) as real
  }

  /** The indices below `i` that are multiples of `k`, ascending. */
  function MultiplesBelow(k: nat, i: nat): seq<nat>
    requires k > 0
  {
    if i == 0 then [] else MultiplesBelow(k, i - 1) + (if (i - 1) % k == 0 then [i - 1] else [])
  }

  lemma SkipSample(k: nat, i: nat)
    requires k > 0 && i % k != 0
    ensures MultiplesBelow(k, i + 1) == MultiplesBelow(k, i)
  {
    assert MultiplesBelow(k, i + 1) == MultiplesBelow(k, i) + [];
  }

  lemma OffSixteen(base: nat, r: nat)
    requires base % 16 == 0 && 0 < r < 16
    ensures (base + r) % 16 != 0
  {
  }

  lemma OffTwentyFour(base: nat, r: nat)
    requires base % 24 == 0 && 0 < r < 24
    ensures (base + r) % 24 != 0
  {
  }

  lemma NextSixteen(base: nat)
    requires base % 16 == 0
    ensures (base + 16) % 16 == 0
  {
  }

  lemma NextTwentyFour(base: nat)
    requires base % 24 == 0
    ensures (base + 24) % 24 == 0
  {
  }

  /** A positive offset short of the stride from a multiple of it is not a
      multiple. */
  lemma OffStride(l: Layout, base: nat, r: nat)
    requires Parametric(l) && base % Stride(l) == 0 && 0 < r < Stride(l)
    ensures (base + r) % Stride(l) != 0
  {
    match l
    case NeonCircuit => OffSixteen(base, r);
    case HyperOverpass => OffSixteen(base, r);
    case MazeVector => OffTwentyFour(base, r);
  }

  /** Between two consecutive multiples of the stride nothing is kept. */
  lemma {:induction false} NothingBetweenStrides(l: Layout, base: nat, j: nat)
    requires Parametric(l) && base % Stride(l) == 0 && 1 <= j <= Stride(l)
    ensures MultiplesBelow(Stride(l), base + j) == MultiplesBelow(Stride(l), base + 1)
  {
    if j > 1 {
      NothingBetweenStrides(l, base, j - 1);
      OffStride(l, base, j - 1);
      SkipSample(Stride(l), base + j - 1);
    }
  }

  /** From a multiple of the stride to the next, exactly that next multiple
      is kept. */
  lemma NextMultiple(l: Layout, base: nat)
    requires Parametric(l) && base % Stride(l) == 0
    ensures (base + Stride(l)) % Stride(l) == 0
    ensures MultiplesBelow(Stride(l), base + Stride(l) + 1) == MultiplesBelow(Stride(l), base + 1) + [base + Stride(l)]
  {
    NothingBetweenStrides(l, base, Stride(l));
    match l
    case NeonCircuit => NextSixteen(base);
    case HyperOverpass => NextSixteen(base);
    case MazeVector => NextTwentyFour(base);
    assert MultiplesBelow(Stride(l), base + Stride(l) + 1)
        == MultiplesBelow(Stride(l), base + Stride(l)) + [base + Stride(l)];
  }

  /** Each parametric track keeps exactly five samples, 0, k, 2k, 3k and 4k,
      the last being the final sample. */
  lemma FiveSamplesKept(l: Layout)
    requires Parametric(l)
    ensures var k := Stride(l);
      MultiplesBelow(k, LastSample(l) + 1) == [0, k, 2 * k, 3 * k, 4 * k]
    ensures 4 * Stride(l) == LastSample(l)
  {
    var k := Stride(l);
    assert MultiplesBelow(k, 1) == [0];
    NextMultiple(l, 0);
    NextMultiple(l, k);
    NextMultiple(l, k + k);
    NextMultiple(l, k + k + k);
    assert k + k == 2 * k && k + k + k == 3 * k && k + k + k + k == 4 * k;
  }

  /** The sampling loop of the track generator: it visits i = 0 .. LastSample
      and keeps i when i is a multiple of the stride. */
  method CollectCheckpointSamples(l: Layout) returns (kept: seq<nat>)
    requires Parametric(l)
    ensures |kept| == 5
    ensures forall j :: 0 <= j < 5 ==> kept[j] == j * Stride(l)
    ensures kept[4] == LastSample(l)
  {
    var k, n := Stride(l), LastSample(l);
    kept := [];
    var i := 0;
    while i <= n
      invariant 0 <= i <= n + 1
      invariant kept == MultiplesBelow(k, i)
    {
      if i % k == 0 {
        kept := kept + [i];
      }
      i := i + 1;
    }
    FiveSamplesKept(l);
  }

  /** The checkpoint height: 5 above the ground, or 5 above the sample on the
      elevated track. */
  function CheckpointAt(l: Layout, p: Vec3): (c: Vec3)
    ensures c.x == p.x && c.z == p.z
    ensures c.y == if l == HyperOverpass then p.y + 5.0 else 5.0
  {
    if l == HyperOverpass then Vec3(p.x, p.y + 5.0, p.z) else Vec3(p.x, 5.0, p.z)
  }

  /** The corners of the default square track. */
  const SquareCorners: seq<Vec3> := [Vec3(0.0, 0.0, 0.0), Vec3(100.0, 0.0, 0.0), Vec3(100.0, 0.0, 100.0), Vec3(0.0, 0.0, 100.0)]

  /** The generator's checkpoint list for a layout. */
  function GenerateCheckpoints(l: Layout, curve: (Layout, real) -> Vec3): (cps: seq<Vec3>)
    ensures Parametric(l) ==> |cps| == 5
    ensures Parametric(l) ==> forall j :: 0 <= j < 5 ==>
      cps[j] == CheckpointAt(l, curve(l, SampleTurns(l, j * Stride(l))))
    ensures l == SquareDefault ==> |cps| == 4 && forall j :: 0 <= j < 4 ==>
      cps[j].x == SquareCorners[j].x && cps[j].z == SquareCorners[j].z && cps[j].y == 5.0
  {
    if l == SquareDefault then
      seq(4, j requires 0 <= j < 4 => CheckpointAt(l, SquareCorners[j]))
    else
      FiveSamplesKept(l);
      var kept := MultiplesBelow(Stride(l), LastSample(l) + 1);
      seq(|kept|, j requires 0 <= j < |kept| => CheckpointAt(l, curve(l, SampleTurns(l, kept[j]))))
  }

  /** A centreline that repeats after a full turn, as the trigonometric
      curves of the source do. */
  ghost predicate Periodic(curve: (Layout, real) -> Vec3) {
    forall l, t :: curve(l, t + 1.0) == curve(l, t)
  }

  /** On every parametric track the last checkpoint is taken at a whole
      number of turns, so it lies exactly on the first one. */
  lemma LastCheckpointIsFirst(l: Layout, curve: (Layout, real) -> Vec3)
    requires Parametric(l) && Periodic(curve)
    ensures var cps := GenerateCheckpoints(l, curve); cps[4] == cps[0]
  {
    assert SampleTurns(l, 0 * Stride(l)) == 0.0;
    assert SampleTurns(l, 4 * Stride(l)) == Turns(l) as real;
    assert curve(l, 0.0 + 1.0) == curve(l, 0.0);
    if l == MazeVector {
      assert curve(l, 1.0 + 1.0) == curve(l, 1.0);
    }
  }

  /** The fixed checkpoints substituted when building the track fails. */
  const FallbackCheckpoints: seq<Vec3> := [Vec3(0.0, 5.0, 100.0), Vec3(100.0, 5.0, 100.0), Vec3(100.0, 5.0, -100.0), Vec3(0.0, 5.0, -100.0)]

  /** Building a track: the generated checkpoints, or the fallback list when
      construction throws. Every path returns a non-empty list: five
      checkpoints for a built-in track, four otherwise. */
  function CreateTrack(id: string, curve: (Layout, real) -> Vec3, buildFails: bool): (cps: seq<Vec3>)
    ensures |cps| == (if !buildFails && Parametric(LayoutOf(id)) then 5 else 4)
    ensures buildFails ==> cps == FallbackCheckpoints
    ensures !buildFails ==> cps == GenerateCheckpoints(LayoutOf(id), curve)
  {
    if buildFails then FallbackCheckpoints else GenerateCheckpoints(LayoutOf(id), curve)
  }
}
